=== FILE: README.md ===
# EIP-712 typed-data hasher of the BlockEase hardware wallet, in Dafny

This project models the part of the wallet firmware that computes the
digest a user signs for an EIP-712 typed-data request. It also models the
Ethereum hashing entry points built on top of it. The files modelled are
`components/ethereum/eip712/eip712.c` and `components/ethereum/ethereum.c`.

The firmware works in four layers, and the model keeps them:

- **Type encoding** (`type_encoder.dfy`).
  - `encodableType` sorts a field type into one of eleven classes. It keeps
    a registry of up to ten user-defined struct names.
  - `parseType` builds the canonical type string, for example
    `Mail(Person from,Person to,string contents)Person(string name,address wallet)`.
    Each struct is declared by itself, then the structs it references follow,
    in the order they were first seen.
- **Word encoding** (`word_encoder.dfy`). Each primitive value becomes one
  32-byte word:
  - an address is twelve zero bytes, then twenty bytes decoded from hex;
  - a string or `bytes` value becomes its Keccak-256 hash;
  - a `bytesN` value is left-aligned;
  - an integer is its 64-bit `strtoll` value in the last eight bytes, and
    the 24 bytes before them are 0xFF exactly when the type starts with
    `in` and the text with `-`, and zero otherwise (so a `uint` "-1" has
    zero high bytes, and an `int` "-0" has 0xFF high bytes over the value
    0);
  - a bool is 0 or 1.
- **Value encoding** (`value_encoder.dfy`). `parseVals` walks a struct's
  fields in schema order. It finds each field's value by name and
  concatenates the words.
  - A nested struct is `keccak(typeHash ‖ encodeData)`.
  - An array of structs is the hash of its elements' struct hashes.
- **Top level** (`typed_data.dfy`, `ethereum.dfy`).
  - `encode` hashes the domain or the message.
  - `e712_types_values` runs one pass of a request.
  - `eip712_typed_data_hash_v4` runs the domain pass and the message pass.
    It then returns `keccak(0x19 0x01 ‖ domainSeparator ‖ messageHash)`, or
    `false`.
  - `ethereum.c` adds a NULL-checking wrapper, plain Keccak-256 and the
    EIP-191 personal-message hash.

How the model represents the program:

- **Keccak-256 is a parameter.** Every operation that hashes takes a function
  `h: Hash`, which returns 32 bytes for any input. Nothing else is assumed
  about it.
- **A hash context is the bytes absorbed so far.** So `EncodeData` returns
  the concatenated words.
- **JSON documents are already parsed.** They are the datatype `Val`: text,
  object with members in document order, or array. A schema is a sequence
  of `TypeDef`s.
- **C strings are `seq<char>`, one char per byte.**
- **The C library calls are modelled.** This covers `strncmp`, `strtok`
  into a buffer, `strncpy` truncation, and `strtol`/`strtoll` (leading
  space, sign, digit run, clamping to the 32-bit `long` and 64-bit
  `long long` of the target). Casts to `uint8_t` are taken modulo 256.
- **`size_t` and `unsigned` are 32 bits wide.** The wrap-around of
  `strlen(a) - strlen(b)` at line 210 and of the `zeroFillLen` computation
  at line 446 is written out.
- **Each status is a `Status` constructor.** `Ok` stands for SUCCESS.
- **Undefined behaviour is the status `Undefined`.** It covers a NULL
  dereference, a text node read as an object, and a read past a string's
  terminator. The model does not guess what the hardware would do there.

Several behaviours of the code differ from EIP-712. The model reproduces
them, and lemmas state them:

- `encodableType` matches a stored struct name when the two names have the
  same length, whatever their text. So a second struct type whose name is
  as long as an earlier one's is never declared (`SameLengthIsPrevious`).
- Referenced structs are declared in discovery order, not alphabetically.
- The value dispatch compares shortened names (`addres`, `strin`, `uin`,
  `in`). Its bool test asks whether the type is a prefix of `bool`. So
  `bool[]` takes the struct branch (`BoolArrayIsStruct`).
- Integer arrays, `bytes` arrays and `bytesN` arrays are refused.
- An empty message yields a digest whose message hash is 32 zero bytes
  (`EmptyMessageDigest`).
- A primary type that is a prefix of `EIP712Domain`, the empty name
  included, gives no digest (`DomainPrefixRefuses`).

Two more behaviours of the code are easy to miss:

- The registry test compares `strlen(stored) - strlen(key)` characters,
  not the whole names (`RegistryMatchMeaning`).
- The message hash is always part of the digest. An empty message
  contributes 32 zero bytes (`EmptyMessageDigest`).

## Model

Source paths are relative to the repository root.

| member | source | states |
|---|---|---|
| TypeEncoder.EncodableType | components/ethereum/eip712/eip712.c:152-230 | The address, string, int, uint, bytes, bytesN, not-encodable and bool classes are each chosen exactly when their `strncmp` prefix test holds, with `bytesN` wider than 32 (read by `strtol`, cut to 8 bits) not encodable. A non-primitive name is PREV_USERDEF exactly when some stored name matches it. It is UDEF_TYPE exactly when none matches and a slot is free, and only then is it appended to the registry. |
| TypeEncoder.ScanRegistry | components/ethereum/eip712/eip712.c:201-227 | From slot `i` on, the first matching stored name gives PREV_USERDEF. With no match, a free slot registers the name, and a full registry of ten gives TOO_MANY_UDEFS. |
| TypeEncoder.ParseType | components/ethereum/eip712/eip712.c:243-366 | An undeclared struct fails with JSON_TYPE_S_ERR, and every failure is one of the four statuses `parseType` returns. On success the text is the struct's own declaration followed by the declarations of the struct types registered during the call, in registration order, and the registry only grows. Which status a failing field gives is stated by `TypeProperties.StepFailureStops` and `TypeProperties.ParseFieldsFirstFailure`. |
| TypeEncoder.ParseFields | components/ethereum/eip712/eip712.c:270-348 | The member text is `type name,` for every field in order. The appended text is the declarations of exactly the names registered meanwhile. |
| TypeEncoder.TypeString | components/ethereum/eip712/eip712.c:923-937 | Starting from an empty registry, the type string begins with the struct's declaration. An undeclared struct is JSON_TYPE_S_ERR. |
| TypeProperties.DeclarationShape | components/ethereum/eip712/eip712.c:267-359 | A declaration is `Name(type1 name1,...,typeN nameN)`, with no trailing comma, and a struct without fields is `Name()`. |
| TypeProperties.UnencodableFieldFails | components/ethereum/eip712/eip712.c:183-188 | A struct with a field typed `bytesN` for N above 32 has no type string, whatever its other fields are. As the first field it gives TYPE_NOT_ENCODABLE. |
| TypeEncoder.ParseField | components/ethereum/eip712/eip712.c:292-335 | One turn of the field loop. A full registry fails with UDEFS_OVERFLOW and an unencodable type with TYPE_NOT_ENCODABLE. Any class other than a new struct lets the field through with no declarations and the registry unchanged. Every failure is a status `parseType` returns. |
| TypeProperties.UnencodableFieldStep | components/ethereum/eip712/eip712.c:331-334 | The turn of a field typed `bytesN` for N above 32 fails with TYPE_NOT_ENCODABLE, whatever the registry holds. |
| TypeProperties.ParseFieldsOkEncodable | components/ethereum/eip712/eip712.c:183-188 | A field loop that goes through has no field typed `bytesN` with N above 32. |
| TypeProperties.FieldFailureStopsField | components/ethereum/eip712/eip712.c:296-335 | A field whose class alone fails makes its turn fail with that class's status. This covers a full registry, an unencodable type, a struct array type over 32 characters and an undeclared struct. |
| TypeProperties.StepFailureStops | components/ethereum/eip712/eip712.c:292-335 | Suppose the fields before field i go through and leave some registry. If field i's turn fails under that registry, the whole loop fails with that turn's status. This holds whether the field fails by its own class or inside the parse of the struct it names (lines 311-326). |
| TypeProperties.ParseFieldsFirstFailure | components/ethereum/eip712/eip712.c:292-335 | When the fields before field i go through and field i fails by its own class, the loop stops with that class's status. A full registry gives UDEFS_OVERFLOW and an unencodable type TYPE_NOT_ENCODABLE. A struct array type over 32 characters gives UDEF_NAME_ERROR and an undeclared struct JSON_TYPE_S_ERR. |
| TypeProperties.TypeStringStepFailure | components/ethereum/eip712/eip712.c:923-937 | Take a struct whose field i is the first whose turn fails, by its class or inside the struct it names. Its type string fails with that turn's status. |
| TypeProperties.TypeStringFirstFailure | components/ethereum/eip712/eip712.c:923-937 | The type string of a struct whose first failing field fails by its own class ends with that class's status. |
| TypeProperties.RegistryMatchMeaning | components/ethereum/eip712/eip712.c:203-212 | A stored name matches a candidate exactly when the two have the same length, or when the stored one is longer by d and its first d characters equal the candidate's. A shorter stored name never matches. |
| TypeProperties.SameLengthIsPrevious | components/ethereum/eip712/eip712.c:208-213 | The comparison at lines 208-213 sets a stored entry, which is the full type text and may end in `[...]`, against the candidate's key. The key is the candidate truncated to 32 characters and cut at its first `[`. When a stored entry has the same length as that key, the candidate is classified PREV_USERDEF and the registry is left unchanged, whatever the text of either. |
| TypeProperties.MailTypeString | components/ethereum/eip712/eip712.c:243-366 | The `Mail`/`Person` schema of EIP-712 yields exactly `Mail(Person from,Person to,string contents)Person(string name,address wallet)`. |
| WordEncoder.EncAddress | components/ethereum/eip712/eip712.c:368-392 | NULL gives ADDR_STRING_NULL and a text over 42 characters gives ADDR_STRING_VFLOW. Success happens exactly for texts of 40 to 42 characters. The word is twelve zero bytes, then byte i is the hex pair at 2+2i. |
| WordProperties.AddressRoundTrip | components/ethereum/eip712/eip712.c:368-392 | For any 20 bytes a, encoding `0x` followed by the hex spelling of a gives twelve zero bytes followed by a. |
| WordEncoder.EncodeBytes | components/ethereum/eip712/eip712.c:404-423 | The encoding is defined exactly when the text has at least two characters and an even length. |
| WordProperties.BytesRoundTrip | components/ethereum/eip712/eip712.c:404-423 | Encoding `0x` followed by the hex spelling of a gives the hash of a. |
| WordProperties.HexDecodeRoundTrip | components/ethereum/eip712/eip712.c:412-419 | Decoding the hex spelling of any byte string gives the bytes back. |
| WordEncoder.EncodeBytesN | components/ethereum/eip712/eip712.c:425-454 | A text over 66 characters gives BYTESN_STRING_ERROR. Otherwise an N above 32 gives BYTESN_SIZE_ERROR, and otherwise it succeeds. The word holds the value's decoded bytes from the left, as many as the value spells whatever N is, then zeros. |
| WordProperties.BytesNRoundTrip | components/ethereum/eip712/eip712.c:425-454 | For at most 32 bytes a and a width the type accepts, `0x` followed by the hex of a encodes as a padded on the right with zeros. |
| WordEncoder.IntWord | components/ethereum/eip712/eip712.c:702-733 | The first 24 bytes are 0xFF exactly when the type starts with `in` and the value with `-`, and otherwise zero. The last 8 bytes are the big-endian 64-bit `strtoll` value. |
| WordProperties.UintWordValue | components/ethereum/eip712/eip712.c:710-733 | For a type not starting with `in`, the decimal text of any v up to LLONG_MAX encodes as a word whose unsigned value is v. |
| WordProperties.UintWordSaturates | components/ethereum/eip712/eip712.c:724 | For a type not starting with `in`, any value above LLONG_MAX encodes as LLONG_MAX. |
| WordProperties.IntWordValue | components/ethereum/eip712/eip712.c:702-733 | For a type starting with `in`, the decimal text of any 64-bit v encodes as a word whose two's-complement value is v. |
| WordProperties.BigEndianShifts | components/ethereum/eip712/eip712.c:726-733 | The eight `(x >> k) & 0xff` bytes of a 64-bit value are its big-endian encoding. |
| WordEncoder.BoolWord | components/ethereum/eip712/eip712.c:787-795 | The word is 31 zero bytes and a 1 when the text is exactly `true`, and 32 zero bytes otherwise. |
| WordProperties.BoolWordValue | components/ethereum/eip712/eip712.c:787-795 | The word's value is 1 exactly for `true` and 0 for anything else. |
| CString.HexPairParses | components/ethereum/eip712/eip712.c:388-389 | `strtol` in base 16 of the two-digit hex spelling of a byte, cut to 8 bits, gives the byte. |
| CString.DecimalParses | components/ethereum/eip712/eip712.c:724 | `strtoll` in base 10 reads the decimal spelling of n back as n, before clamping. |
| ValueEncoder.GetValue | components/ethereum/eip712/eip712.c:564 | A value reads as text exactly for a text node, and then reads as the node's own text. It reads as NULL exactly for an empty object or array. |
| ValueEncoder.FindMember | components/ethereum/eip712/eip712.c:559-571 | In an object the walk returns the value of the first member with the field's name, and nothing exactly when no member has that name. It is defined exactly for objects and the empty array. |
| ValueEncoder.Dispatch | components/ethereum/eip712/eip712.c:591-798 | A type takes the address branch exactly when it starts with `addres`. It takes the string branch on `strin`, the integer branch on `uin` or `in`, and the bytes branch on `bytes`, each only when no earlier test holds. It takes the bool branch exactly when it is a prefix of `bool` and no earlier test holds. |
| ValueEncoder.EncodeData | components/ethereum/eip712/eip712.c:510-908 | The data is 32 bytes per field, no fields give empty data, and every failure is a `parseVals` status. |
| ValueEncoder.AddressField | components/ethereum/eip712/eip712.c:591-636 | A single address is `encAddress` of the text, and an empty object or array is ADDR_STRING_NULL. An address array is the hash of its elements' words, and every status is one `encAddress` or `json_getValue` can cause. |
| ValueProperties.AddressWordsAre | components/ethereum/eip712/eip712.c:596-618 | The words of an address array exist exactly when every element encodes. Word i is element i's `encAddress` word, and otherwise the first element that fails gives the status. |
| ValueProperties.AddressArray | components/ethereum/eip712/eip712.c:591-621 | An address array value encodes exactly when every element does. It is then the hash of the elements' words, where every element is text and word i is `encAddress` of element i's text. Otherwise it fails with the first failing element's status. |
| ValueEncoder.StringField | components/ethereum/eip712/eip712.c:637-682 | A string is the hash of its text and succeeds exactly for a text node. A string array succeeds exactly when every element is text. |
| WordProperties.StringHashesItsBytes | components/ethereum/eip712/eip712.c:394-402 | `encString` hashes the string's characters, one byte each, up to the terminator: a text spelling the bytes a hashes as a. |
| ValueProperties.StringWordsAre | components/ethereum/eip712/eip712.c:642-664 | The words of a string array exist exactly when every element is text, and word i is the hash of element i's text. |
| ValueProperties.StringArray | components/ethereum/eip712/eip712.c:637-665 | A string array value encodes exactly when every element is text, and fails with undefined behaviour otherwise. It is then the hash of the words, where word i is the hash of element i's text. |
| ValueEncoder.IntField | components/ethereum/eip712/eip712.c:683-735 | An integer array is INT_ARRAY_ERROR. A scalar succeeds exactly for text and gives the integer word. |
| ValueEncoder.BytesField | components/ethereum/eip712/eip712.c:736-770 | A bytes array is BYTESN_ARRAY_ERROR. A text value goes to `encodeBytes` for `bytes` and to `encodeBytesN` for any other bytes type. |
| ValueEncoder.BoolField | components/ethereum/eip712/eip712.c:771-797 | The branch succeeds exactly for a type not ending in `]` with a text value, giving the bool word. BOOL_ARRAY_ERROR comes exactly from a type ending in `]`. An empty type reads the opening quote before it, so it is not an array. |
| ValueEncoder.StructWord | components/ethereum/eip712/eip712.c:798-898 | A struct value is `keccak(keccak(typeString) ‖ encodeData)`. A failing type string or failing data passes its status on. An array type longer than 32 characters is UDEF_ARRAY_NAME_ERR, and a shorter one depends on the type only through its name before the first `[`. Every result is 32 bytes or a `parseVals` status. |
| ValueProperties.EncodeDataIsConcat | components/ethereum/eip712/eip712.c:527-907 | The encoded data is the fields' words concatenated in schema order, stopping with the status of the first field that fails. |
| ValueProperties.EncodeDataOkIff | components/ethereum/eip712/eip712.c:527-907 | The encoding succeeds exactly when every field's value is found by name and encodes. |
| ValueProperties.EncodeDataWords | components/ethereum/eip712/eip712.c:902 | Word i of the encoding is the word of field i, with fields in schema order. |
| ValueProperties.FirstFailure | components/ethereum/eip712/eip712.c:527-907 | When fields 0 to i-1 encode and field i does not, the encoding fails with field i's status. |
| ValueProperties.MissingFieldFails | components/ethereum/eip712/eip712.c:584-588 | A field with no member of its name gives JSON_TYPE_WNOVAL once the fields before it have encoded. |
| ValueProperties.ReorderedData | components/ethereum/eip712/eip712.c:559-571 | Permuting the members of a value object with distinct names leaves its encoding unchanged. |
| ValueProperties.ExtraMembersIgnored | components/ethereum/eip712/eip712.c:559-571 | Members appended after the ones the schema names do not change the encoding. |
| ValueProperties.IntArrayRefused | components/ethereum/eip712/eip712.c:683-690 | Any type starting with `uin` or `in` and ending in `]` fails with INT_ARRAY_ERROR, whatever its value. |
| ValueProperties.BytesArrayRefused | components/ethereum/eip712/eip712.c:736-741 | Any type starting with `bytes` and ending in `]` fails with BYTESN_ARRAY_ERROR. |
| ValueProperties.BoolArrayIsStruct | components/ethereum/eip712/eip712.c:771-826 | `bool[]` takes the struct branch. Without a struct named `bool` it fails with JSON_TYPE_S_ERR, never BOOL_ARRAY_ERROR. |
| ValueProperties.StructArrayWord | components/ethereum/eip712/eip712.c:842-876 | An array of struct t hashes the concatenation of the words its elements would have as single t values. The empty array hashes the empty string. |
| ValueProperties.ArrayLengthIgnored | components/ethereum/eip712/eip712.c:810-876 | For a struct name t without `[`, the type `t[n]` encodes every value exactly as `t[]` does, whatever n is, as long as the type fits the 32-byte buffer. |
| TypedData.Encode | components/ethereum/eip712/eip712.c:910-995 | A missing `types` member is JSON_TYPESPROPERR, and every result is a 32-byte hash or an `encode` status. Success implies the struct is declared. |
| TypedData.TypesValues | components/ethereum/eip712/eip712.c:1012-1098 | The domain pass stores `encode(EIP712Domain)` as the domain separator and changes nothing else but the flags. A message pass before any domain fails with MSG_NO_DS. A successful message pass needs a stored domain separator and a text `primaryType` that is not a prefix of `EIP712Domain`. It stores `encode(primaryType)` as the message hash, or keeps the old one when the message is empty, sets both message flags and changes nothing else. |
| TypedData.TypedDataHashV4 | components/ethereum/eip712/eip712.c:1100-1154 | A digest exists only when the domain encodes, `primaryType` is a text that is not a prefix of `EIP712Domain`, and the message encodes or is empty. The digest is then `keccak(0x19 0x01 ‖ domainSeparator ‖ messageHash)`, with 32 zero bytes for an empty message. |
| TypedDataProperties.MessageIsStructWord | components/ethereum/eip712/eip712.c:939-990 | A non-empty message of a non-domain struct t hashes to the same word a field of type t holding it would get. |
| TypedDataProperties.DomainIsStructWord | components/ethereum/eip712/eip712.c:939-990 | The domain separator is the word of the `domain` member as an `EIP712Domain` struct, even when it is empty. |
| TypedDataProperties.EmptyMessageIff | components/ethereum/eip712/eip712.c:976-982 | For a declared non-domain type, `encode` returns NULL_MSG_HASH exactly when the message is an empty object or array. |
| TypedDataProperties.MissingMembers | components/ethereum/eip712/eip712.c:964-975 | Without a `domain` or `message` member, `encode` fails with JSON_DPROPERR for the domain type and JSON_MPROPERR otherwise. |
| TypedDataProperties.DigestIsEip712 | components/ethereum/eip712/eip712.c:1100-1154 | When both passes encode, the result is the digest `keccak(0x19 0x01 ‖ domainSeparator ‖ messageHash)`. |
| TypedDataProperties.EmptyMessageDigest | components/ethereum/eip712/eip712.c:1080-1151 | An empty message still gives a digest, with 32 zero bytes as its message hash. |
| TypedDataProperties.DomainFailureRefuses | components/ethereum/eip712/eip712.c:1054-1130 | A domain that fails to encode makes the call return false, unless the failure is undefined behaviour. |
| TypedDataProperties.DomainPrefixRefuses | components/ethereum/eip712/eip712.c:1080-1149 | A primary type that is a prefix of `EIP712Domain` makes the call return false. |
| TypedDataProperties.MessageFailureRefuses | components/ethereum/eip712/eip712.c:1082-1149 | A message failing with any status other than NULL_MSG_HASH makes the call return false. |
| Ethereum.EthereumTypedDataHashV4 | components/ethereum/ethereum.c:49-62 | Any NULL document gives `false` with a zeroed digest, and `false` always comes with 32 zero bytes. |
| EthereumProperties.WrapperPassesDigest | components/ethereum/ethereum.c:49-62 | With all documents present, the wrapper returns `true` and the EIP-712 digest exactly when one exists, and `false` otherwise. |
| Ethereum.Keccak256 | components/ethereum/ethereum.c:64-67 | The digest depends only on the first `len` bytes of the buffer. |
| Ethereum.Eip191Preimage | components/ethereum/ethereum.c:69-82 | The hashed buffer is 0x19, `Ethereum Signed Message:\n`, the decimal spelling of `len` and the first `len` message bytes, in that order, and nothing else. |
| Ethereum.Keccak256Eip191 | components/ethereum/ethereum.c:69-88 | The digest is Keccak-256 of the whole EIP-191 preimage. |
| EthereumProperties.Eip191Injective | components/ethereum/ethereum.c:71-82 | Two messages with the same preimage have the same length and the same bytes. |
| EthereumProperties.Eip191ReadsPrefix | components/ethereum/ethereum.c:79-86 | Bytes past `len` never change the EIP-191 digest. |

## Left out

- Keccak-256 itself (`sha3_256_Init`, `sha3_Update`, `keccak_Final`,
  `keccak_256`) is a parameter. Only its 32-byte output width is known.
- JSON text parsing (`json_create` and its 100-node pool) is out of scope.
  The model starts from parsed documents.
  - A request whose JSON fails to parse gives `false` in the code. That case
    is not represented.
  - The structural statuses (JSON_NO_PAIRS, JSON_PAIRS_NOTEXT,
    JSON_NO_PAIRS_SIB, JSON_NOPAIRVAL, JSON_NOPAIRNAME, JSON_TYPE_T_NOVAL,
    JSON_TYPE_S_NAMEERR) cannot arise, because a schema field always has a
    name and a type.
- ValueProperties.MissingFieldFails: when no member has the field's name,
  the walk ends with `walkVals` NULL, and line 574 passes that NULL to
  `json_getType` before the NULL test of line 584. The model, and so the
  lemma, assumes that call returns without faulting and reaches
  JSON_TYPE_WNOVAL. It is the one NULL dereference not mapped to
  `Undefined`, because tiny-json's `json_getType` is not part of this model
  and what it does with NULL is not known here.
- TypeEncoder.ParseReferenced: when an empty field type is classed
  UDEF_TYPE, line 296 reads `typeType[strlen(typeType) - 1]`, the byte
  before the string. tiny-json parses in place, so that byte is the opening
  quote of the JSON string. The model therefore treats the type as not an
  array and looks up a struct with the empty name. The bool branch's read
  of the same byte at line 773 is treated the same way (`ValueEncoder.BoolField`).
- The confirmation and display hooks `failMessage`, `confirmName`,
  `confirmValue` and `marshallDsVals` only log or record pointers for
  display, so they have no counterpart.
- The 511-byte type-string buffer (`STRBUFSIZE`) and its `strncat`
  truncation are left out. Type strings are unbounded.
- Memory management is left out. This covers `malloc`/`free`, a failed
  allocation, `memzero` of the buffer, and the static `udefList` (a value
  threaded through the calls).
- In `ethereum_keccak256_eip191`, the `sprintf` of line 81 writes a
  terminator one byte past `joined_data` when `len` is 0. The model does
  not follow this out-of-bounds write.
- Ethereum.Keccak256Eip191: requires `len <= SIZE_MAX` and does not model the
  `size_t` overflow of `joined_data_len`.
- TypeEncoder.RegistryMatch: requires, through
  `TypeProperties.RegistryMatchMeaning`, a stored name shorter than 2^32
  characters, as any string in the wallet's memory is.
- TypedData.TypedHash: only its width is stated. The formula it computes is
  stated by `TypedDataProperties.DigestIsEip712`.
- Undefined behaviour is one status, `Undefined`, rather than a prediction.
  - This covers a too-short address, an odd-length `bytes` value, a
    non-text scalar value and a non-object value container.
  - It also covers an array element type with no struct.
  - Lemmas about outcomes state `Undefined` separately where it can occur.
- The numeric `#define` values of the statuses are not modelled. The
  hasher compares a status only with SUCCESS, which `Ok` stands for. The
  number itself reaches only the display hook `failMessage`.
- The rest of the repository (UI, controllers, wallet, storage, AES) is not
  part of this model.

=== FILE: cstring.dfy ===
/** The C library behaviour the hasher relies on, stated over model strings.

    A model `string` is the content of a C string up to its terminating NUL,
    one `char` per C byte.  The functions here are the model's `strncmp`,
    `strtok`, `strncpy` truncation, `strtol`/`strtoll` and `sprintf("%zu")`,
    together with the hex spelling the wallet's callers use for byte strings. */
module CString {
  import opened Uint8
  import opened Errors

  function Min(a: nat, b: nat): nat { if a <= b then a else b }

  /** The bytes `sha3_Update` sees for a C string: one per char. */
  function Bytes(s: string): (r: seq<byte>)
    ensures |r| == |s|
  {
    seq(|s|, i requires 0 <= i < |s| => ((s[i] as int) % 256) as byte)
  }

  // ---------------------------------------------------------------- strncmp

  /** `strncmp(a, b, n) == 0`: the first `n` characters agree, where a string
      that ends early only agrees with one that ends at the same place. */
  predicate StrnEq(a: string, b: string, n: nat)
  {
    a[..Min(n, |a|)] == b[..Min(n, |b|)]
  }

  predicate HasPrefix(s: string, p: string)
  {
    |p| <= |s| && s[..|p|] == p
  }

  /** `strncmp(s, p, strlen(p)) == 0` is exactly "p is a prefix of s". */
  lemma StrnEqIsPrefix(s: string, p: string)
    ensures StrnEq(s, p, |p|) <==> HasPrefix(s, p)
    ensures StrnEq(p, s, |p|) <==> HasPrefix(s, p)
  {
  }

  /** `strncmp(a, b, sizeof(b))`, which also compares the terminator, is
      string equality. */
  lemma StrnEqWhole(a: string, b: string, n: nat)
    requires n > |b|
    ensures StrnEq(a, b, n) <==> a == b
  {
    if StrnEq(a, b, n) {
      assert b[..Min(n, |b|)] == b;
      assert a[..Min(n, |a|)] == a;
    }
  }

  /** `s[strlen(s) - 1] == c`; false for the empty string. */
  predicate EndsWith(s: string, c: char)
  {
    |s| > 0 && s[|s| - 1] == c
  }

  /** `s + n`, clamped to the terminator. */
  function Drop(s: string, n: nat): string
  {
    s[Min(n, |s|)..]
  }

  /** What `strncpy(buf, s, n)` leaves in a zeroed buffer of `n + 1` bytes. */
  function Truncate(s: string, n: nat): (r: string)
    ensures |r| == Min(n, |s|)
    ensures HasPrefix(s, r)
  {
    s[..Min(n, |s|)]
  }

  // ----------------------------------------------------------------- strtok

  /** The number of leading copies of `d`. */
  function LeadingCount(s: string, d: char): (k: nat)
    ensures k <= |s|
    ensures forall i :: 0 <= i < k ==> s[i] == d
    ensures k < |s| ==> s[k] != d
    ensures d !in s ==> k == 0
  {
    if |s| > 0 && s[0] == d then 1 + LeadingCount(s[1..], d) else 0
  }

  /** The first index at or after `k` holding `d`, or `|s|`. */
  function IndexFrom(s: string, d: char, k: nat): (j: nat)
    requires k <= |s|
    ensures k <= j <= |s|
    ensures forall i :: k <= i < j ==> s[i] != d
    ensures j < |s| ==> s[j] == d
    ensures d !in s ==> j == |s|
    decreases |s| - k
  {
    if k == |s| || s[k] == d then k else IndexFrom(s, d, k + 1)
  }

  /** The string a buffer holds after `strtok(buf, [d])` when the return value
      is ignored: leading copies of `d` stay, and the string is cut at the
      first `d` after them. */
  function StrtokBuffer(s: string, d: char): (r: string)
    ensures HasPrefix(s, r)
    ensures d !in s ==> r == s
  {
    s[..IndexFrom(s, d, LeadingCount(s, d))]
  }

  /** The pointer `strtok(buf, [d])` returns: the first run of characters
      other than `d`, or NULL when there is none. */
  function StrtokToken(s: string, d: char): (r: Option<string>)
    ensures r.Some? ==> d !in r.value && |r.value| > 0
    ensures d !in s && s != "" ==> r == Some(s)
  {
    var k := LeadingCount(s, d);
    if k == |s| then None
    else
      var j := IndexFrom(s, d, k);
      assert d !in s ==> s[k..j] == s;
      Some(s[k..j])
  }

  // ------------------------------------------------------- strtol, strtoll

  /** `isspace` in the C locale. */
  predicate IsSpace(c: char)
  {
    c == ' ' || c == '\t' || c == '\n' || c == '\U{000B}' || c == '\U{000C}' || c == '\r'
  }

  /** The value of `c` as a digit, 36 when it is not a digit of any base. */
  function DigitOf(c: char): (d: nat)
    ensures d <= 36
  {
    if '0' <= c <= '9' then c as int - '0' as int
    else if 'a' <= c <= 'z' then c as int - 'a' as int + 10
    else if 'A' <= c <= 'Z' then c as int - 'A' as int + 10
    else 36
  }

  predicate IsDigit(c: char, base: nat)
  {
    DigitOf(c) < base
  }

  /** The index just past the run of white space starting at `i`. */
  function SkipSpaces(s: string, i: nat): (j: nat)
    requires i <= |s|
    ensures i <= j <= |s|
    decreases |s| - i
  {
    if i < |s| && IsSpace(s[i]) then SkipSpaces(s, i + 1) else i
  }

  /** The index just past the run of digits of `base` starting at `i`. */
  function DigitsEnd(s: string, i: nat, base: nat): (j: nat)
    requires i <= |s|
    ensures i <= j <= |s|
    ensures forall k :: i <= k < j ==> IsDigit(s[k], base)
    decreases |s| - i
  {
    if i < |s| && IsDigit(s[i], base) then DigitsEnd(s, i + 1, base) else i
  }

  /** The value of the digits `s[i..j]`, most significant first. */
  function DigitsValue(s: string, i: nat, j: nat, base: nat): nat
    requires i <= j <= |s|
    decreases j - i
  {
    if j == i then 0 else DigitsValue(s, i, j - 1, base) * base + Min(DigitOf(s[j - 1]), base)
  }

  /** The value `strtol(s, NULL, base)` computes before it clamps to the
      range of its result type: leading white space, an optional sign, for
      base 16 an optional `0x`, then the longest run of digits (none gives 0). */
  function ParseInteger(s: string, base: nat): int
  {
    var start := SkipSpaces(s, 0);
    var negative := start < |s| && s[start] == '-';
    var afterSign := if start < |s| && (s[start] == '-' || s[start] == '+') then start + 1 else start;
    var first := if base == 16 && afterSign + 2 <= |s| && s[afterSign] == '0'
                    && (s[afterSign + 1] == 'x' || s[afterSign + 1] == 'X')
                 then afterSign + 2 else afterSign;
    var magnitude: int := DigitsValue(s, first, DigitsEnd(s, first, base), base);
    if negative then -magnitude else magnitude
  }

  function Clamp(x: int, lo: int, hi: int): int
  {
    if x < lo then lo else if hi < x then hi else x
  }

  /** `long` is 32 bits wide in the ESP-IDF C ABI the wallet is built for. */
  const LongMin: int := -0x8000_0000
  const LongMax: int := 0x7FFF_FFFF
  const LongLongMin: int := -0x8000_0000_0000_0000
  const LongLongMax: int := 0x7FFF_FFFF_FFFF_FFFF

  /** `strtol(s, NULL, base)`: out-of-range values saturate. */
  function StrToL(s: string, base: nat): (r: int)
    ensures LongMin <= r <= LongMax
  {
    Clamp(ParseInteger(s, base), LongMin, LongMax)
  }

  /** `strtoll(s, NULL, base)`. */
  function StrToLL(s: string, base: nat): (r: int)
    ensures LongLongMin <= r <= LongLongMax
  {
    Clamp(ParseInteger(s, base), LongLongMin, LongLongMax)
  }

  /** The C conversion `(uint8_t)x`: reduction modulo 256. */
  function ToUint8(x: int): (r: nat)
    ensures r < 256
  {
    x % 256
  }

  /** `strncpy(buf, &s[k], 2)` into a 3-byte zeroed buffer followed by
      `(uint8_t)strtol(buf, NULL, 16)`: the byte a hex pair at `k` spells. */
  function HexByteAt(s: string, k: nat): byte
    requires k <= |s|
  {
    HexValue(PairBuffer(s, k))
  }

  /** The buffer `strncpy(buf, &s[k], 2)` leaves: the characters at `k` and
      `k + 1`, as far as the text reaches. */
  function PairBuffer(s: string, k: nat): string
    requires k <= |s|
  {
    if k + 2 <= |s| then [s[k], s[k + 1]] else if k + 1 <= |s| then [s[k]] else []
  }

  /** `(uint8_t)strtol(buf, NULL, 16)`. */
  function HexValue(buf: string): byte
  {
    ToUint8(StrToL(buf, 16)) as byte
  }

  // --------------------------------------------------- decimal and hex text

  function DigitChar(d: nat): char
    requires d < 10
  {
    ('0' as int + d) as char
  }

  /** `sprintf(buf, "%zu", n)`. */
  function Decimal(n: nat): (r: string)
    ensures |r| > 0
    ensures forall i :: 0 <= i < |r| ==> IsDigit(r[i], 10)
  {
    if n < 10 then [DigitChar(n)] else Decimal(n / 10) + [DigitChar(n % 10)]
  }

  /** The number of decimal digits of `n` (1 for 0). */
  function NumDigits(n: nat): (k: nat)
    ensures k >= 1
  {
    if n < 10 then 1 else 1 + NumDigits(n / 10)
  }

  /** A signed integer in the decimal form wallets put in typed data. */
  function FormatInt(v: int): string
  {
    if v < 0 then "-" + Decimal(-v) else Decimal(v)
  }

  function HexDigit(d: nat): char
    requires d < 16
  {
    if d < 10 then DigitChar(d) else ('a' as int + d - 10) as char
  }

  /** Two lower-case hex digits for one byte. */
  function HexPair(b: byte): string
  {
    [HexDigit(b as int / 16), HexDigit(b as int % 16)]
  }

  /** The hex spelling of a byte string, without `0x`. */
  function Hex(bs: seq<byte>): (r: string)
    ensures |r| == 2 * |bs|
  {
    if bs == [] then "" else HexPair(bs[0]) + Hex(bs[1..])
  }

  // ----------------------------------------------------------------- lemmas

  lemma {:induction false} DecimalShape(n: nat)
    ensures |Decimal(n)| == NumDigits(n)
    ensures Decimal(n)[0] == '0' <==> n == 0
    ensures n == 0 ==> Decimal(n) == "0"
  {
    if n >= 10 {
      DecimalShape(n / 10);
    }
  }

  /** Digits after a prefix have the value they have on their own. */
  lemma {:induction false} DigitsValueShift(p: string, d: string, j: nat, base: nat)
    requires j <= |d|
    ensures DigitsValue(p + d, |p|, |p| + j, base) == DigitsValue(d, 0, j, base)
  {
    if j > 0 {
      DigitsValueShift(p, d, j - 1, base);
      assert (p + d)[|p| + j - 1] == d[j - 1];
    }
  }

  /** Text appended after the digits does not change their value. */
  lemma {:induction false} DigitsValueAppend(a: string, b: string, j: nat, base: nat)
    requires j <= |a|
    ensures DigitsValue(a + b, 0, j, base) == DigitsValue(a, 0, j, base)
  {
    if j > 0 {
      DigitsValueAppend(a, b, j - 1, base);
      assert (a + b)[j - 1] == a[j - 1];
    }
  }

  lemma {:induction false} DecimalDigitsValue(n: nat)
    ensures DigitsValue(Decimal(n), 0, |Decimal(n)|, 10) == n
  {
    var r := Decimal(n);
    if n >= 10 {
      var d := Decimal(n / 10);
      assert r == d + [DigitChar(n % 10)];
      DecimalDigitsValue(n / 10);
      DigitsValueAppend(d, [DigitChar(n % 10)], |d|, 10);
    }
  }

  /** A run of digits reaching the end of the text is read to the end. */
  lemma {:induction false} DigitsEndAll(s: string, i: nat, base: nat)
    requires i <= |s|
    requires forall k :: i <= k < |s| ==> IsDigit(s[k], base)
    ensures DigitsEnd(s, i, base) == |s|
    decreases |s| - i
  {
    if i < |s| {
      DigitsEndAll(s, i + 1, base);
    }
  }

  /** `strtol` reads back exactly the value `%zu` printed. */
  lemma DecimalParses(n: nat)
    ensures ParseInteger(Decimal(n), 10) == n
  {
    var s := Decimal(n);
    assert IsDigit(s[0], 10);
    assert SkipSpaces(s, 0) == 0;
    DigitsEndAll(s, 0, 10);
    DecimalDigitsValue(n);
  }

  /** `strtoll` reads back every integer written in decimal. */
  lemma FormatIntParses(v: int)
    ensures ParseInteger(FormatInt(v), 10) == v
  {
    if v >= 0 {
      DecimalParses(v);
    } else {
      var d := Decimal(-v);
      var s := FormatInt(v);
      assert s == "-" + d;
      assert SkipSpaces(s, 0) == 0;
      DigitsEndAll(s, 1, 10);
      DigitsValueShift("-", d, |d|, 10);
      DecimalDigitsValue(-v);
    }
  }

  lemma HexDigitValue(d: nat)
    requires d < 16
    ensures DigitOf(HexDigit(d)) == d
    ensures !IsSpace(HexDigit(d)) && HexDigit(d) != '-' && HexDigit(d) != '+'
    ensures HexDigit(d) != 'x' && HexDigit(d) != 'X'
  {
  }

  /** A text of digits with no space or sign in front, and no `x` after its
      first character, parses as its digits' value. */
  lemma ParsePlainDigits(s: string, base: nat)
    requires |s| > 0 && !IsSpace(s[0]) && s[0] != '-' && s[0] != '+'
    requires forall i :: 0 <= i < |s| ==> IsDigit(s[i], base)
    requires |s| >= 2 ==> s[1] != 'x' && s[1] != 'X'
    ensures ParseInteger(s, base) == DigitsValue(s, 0, |s|, base)
  {
    assert SkipSpaces(s, 0) == 0;
    DigitsEndAll(s, 0, base);
  }

  /** The two digits of a hex pair, read in base 16, give the byte back. */
  lemma HexPairValue(b: byte)
    ensures ParseInteger(HexPair(b), 16) == b as int
  {
    var p := HexPair(b);
    var hi, lo := b as int / 16, b as int % 16;
    HexDigitValue(hi);
    HexDigitValue(lo);
    assert p[0] == HexDigit(hi) && p[1] == HexDigit(lo);
    ParsePlainDigits(p, 16);
    assert DigitsValue(p, 0, 2, 16) == hi * 16 + lo;
  }

  lemma ByteRoundTrip(b: byte)
    ensures (b as int) as byte == b
  {
  }

  /** A buffer whose base-16 value is a byte value converts to that byte. */
  lemma HexValueOfByte(buf: string, x: int)
    requires ParseInteger(buf, 16) == x && 0 <= x < 256
    ensures HexValue(buf) == x as byte
  {
    assert StrToL(buf, 16) == x;
  }

  /** `strtol` in base 16 reads a hex pair back as the byte it spells. */
  lemma HexPairParses(b: byte)
    ensures HexValue(HexPair(b)) == b
  {
    var p, x := HexPair(b), b as int;
    HexPairValue(b);
    HexValueOfByte(p, x);
    ByteRoundTrip(b);
  }

  lemma {:induction false} HexAt(bs: seq<byte>, i: nat)
    requires i < |bs|
    ensures Hex(bs)[2 * i..2 * i + 2] == HexPair(bs[i])
  {
    if i > 0 {
      HexAt(bs[1..], i - 1);
      assert Hex(bs) == HexPair(bs[0]) + Hex(bs[1..]);
    }
  }

  /** Each hex pair of `Hex(bs)` spells the byte it was made from. */
  lemma HexBytesParse(bs: seq<byte>, i: nat)
    requires i < |bs|
    ensures HexByteAt(Hex(bs), 2 * i) == bs[i]
  {
    HexAt(bs, i);
    PairParsesAt(Hex(bs), 2 * i, bs[i]);
  }

  /** A hex pair found at `k` of a text is read back as its byte. */
  lemma PairParsesAt(s: string, k: nat, b: byte)
    requires k + 2 <= |s| && s[k..k + 2] == HexPair(b)
    ensures HexByteAt(s, k) == b
  {
    HexByteAtPair(s, k, HexPair(b));
    HexPairParses(b);
  }

  lemma HexByteAtPair(s: string, k: nat, pair: string)
    requires k + 2 <= |s| && s[k..k + 2] == pair
    ensures HexByteAt(s, k) == HexValue(pair)
  {
    assert PairBuffer(s, k) == pair by {
      assert pair[0] == s[k] && pair[1] == s[k + 1];
    }
  }

  /** The digit count grows with the number, so `NumDigits(n) + n` is
      strictly increasing. */
  lemma {:induction false} NumDigitsMonotone(n: nat, m: nat)
    requires n <= m
    ensures NumDigits(n) <= NumDigits(m)
  {
    if n >= 10 {
      NumDigitsMonotone(n / 10, m / 10);
    }
  }
}

=== FILE: errors.dfy ===
/** Status codes of the EIP-712 hasher and the Result/Option types used to
    return them.  The C code returns an `int` status from every step; here a
    step returns `Ok(value)` where the C code returns SUCCESS and `Fail(status)`
    otherwise.  The numeric codes are those of components/ethereum/eip712/eip712.c. */
module Errors {

  /** Every non-SUCCESS status the hasher can return.  `NullMsgHash` is the
      one status the caller treats as legal (an empty message object).
      `Undefined` has no C counterpart: it stands where the C code has
      undefined behaviour (a NULL dereference, a JSON text node read as an
      object, a read past a string's terminator, whose result depends on
      JSON text the parsed value does not keep). */
  datatype Status =
    | NullMsgHash
    | GeneralError
    | UdefNameError
    | UdefsOverflow
    | UdefArrayNameErr
    | AddrStringVflow
    | BytesnStringError
    | BytesnSizeError
    | IntArrayError
    | BytesnArrayError
    | BoolArrayError
    | JsonPtypeNameErr
    | JsonPtypeValErr
    | JsonTypesPropErr
    | JsonTypeSPropErr
    | JsonDPropErr
    | MsgNoDs
    | JsonMPropErr
    | JsonPtypesObjErr
    | JsonTypeSErr
    | JsonTypeSNameErr
    | JsonNoPairs
    | JsonPairsNoText
    | JsonNoPairsSib
    | TypeNotEncodable
    | JsonNoPairVal
    | JsonNoPairName
    | JsonTypeTNoVal
    | AddrStringNull
    | JsonTypeWNoVal
    | Undefined

  datatype Option<+T> = None | Some(value: T)

  /** The outcome of one step: a value, or the status the C code returns. */
  datatype Result<+T> = Ok(value: T) | Fail(error: Status) {

    predicate IsFailure() {
      Fail?
    }

    function PropagateFailure<U>(): Result<U>
      requires Fail?
    {
      Fail(error)
    }

    function Extract(): T
      requires Ok?
    {
      value
    }
  }
}

=== FILE: ethereum.dfy ===
/** The Ethereum hashing entry points of components/ethereum/ethereum.c:
    the NULL-checking wrapper of the EIP-712 digest, plain Keccak-256 of a
    buffer, and the EIP-191 personal-message hash. */
module Ethereum {
  import opened Uint8
  import opened Errors
  import opened CString
  import opened Keccak
  import opened TypedData

  /** `size_t` on the wallet's processor. */
  const SizeMax: nat := 0xFFFF_FFFF

  /** `ethereum_typed_data_hash_v4` (lines 49-62): the digest buffer is zeroed
      first, so it holds zeros whenever the result is `false`.  A None
      document is a NULL string. */
  function EthereumTypedDataHashV4(h: Hash, primaryType: Option<Doc>, types: Option<TypesDoc>,
                                   domain: Option<Doc>, message: Option<Doc>)
    : (r: Result<(bool, seq<byte>)>)
    ensures r.Ok? ==> |r.value.1| == WordSize
    ensures r.Ok? && !r.value.0 ==> r.value.1 == Zeros(WordSize)
    ensures (domain.None? || message.None? || primaryType.None? || types.None?) ==>
      r == Ok((false, Zeros(WordSize)))
  {
    if domain.None? || message.None? || primaryType.None? || types.None? then
      Ok((false, Zeros(WordSize)))
    else
      var digest :- TypedDataHashV4(h, primaryType.value, types.value, domain.value, message.value);
      match digest
      case None => Ok((false, Zeros(WordSize)))
      case Some(d) => Ok((true, d))
  }

  /** `ethereum_keccak256` (lines 64-67): the hash of the first `len` bytes. */
  function Keccak256(h: Hash, data: seq<byte>, len: nat): (digest: seq<byte>)
    requires len <= |data|
    ensures |digest| == WordSize
    ensures forall other: seq<byte> :: len <= |other| && other[..len] == data[..len] ==>
      digest == h(other[..len])
  {
    h(data[..len])
  }

  /** ETHEREUM_SIG_PREFIX (line 15). */
  const SigPrefix: string := "Ethereum Signed Message:\n"

  /** The buffer lines 71-82 assemble: the byte 0x19, the prefix, the
      decimal length and the first `len` bytes of the message. */
  function Eip191Preimage(data: seq<byte>, len: nat): (p: seq<byte>)
    requires len <= |data|
    ensures |p| == 1 + |SigPrefix| + NumDigits(len) + len
    ensures p[..1 + |SigPrefix|] == [0x19] + Bytes(SigPrefix)
    ensures p[1 + |SigPrefix|..|p| - len] == Bytes(Decimal(len))
    ensures p[|p| - len..] == data[..len]
  {
    DecimalShape(len);
    [0x19] + Bytes(SigPrefix) + Bytes(Decimal(len)) + data[..len]
  }

  /** `ethereum_keccak256_eip191` (lines 69-88). */
  function Keccak256Eip191(h: Hash, data: seq<byte>, len: nat): (digest: seq<byte>)
    requires len <= |data| && len <= SizeMax
    ensures |digest| == WordSize
    ensures digest == h(Eip191Preimage(data, len))
  {
    var p := Eip191Preimage(data, len);
    assert p[..|p|] == p;
    Keccak256(h, p, |p|)
  }
}

=== FILE: ethereum_properties.dfy ===
/** Properties of the Ethereum hashing entry points: the EIP-191 preimage
    determines the message it was built from, bytes past the length are
    never read, and the NULL-checking wrapper passes the EIP-712 digest
    through unchanged. */
module EthereumProperties {
  import opened Uint8
  import opened Errors
  import opened CString
  import opened Keccak
  import opened TypedData
  import opened Ethereum

  /** Two messages with the same EIP-191 preimage have the same length and
      the same bytes: the decimal length cannot be confused with message
      bytes, because a longer message never has a shorter length field. */
  lemma Eip191Injective(d1: seq<byte>, len1: nat, d2: seq<byte>, len2: nat)
    requires len1 <= |d1| && len2 <= |d2|
    requires Eip191Preimage(d1, len1) == Eip191Preimage(d2, len2)
    ensures len1 == len2 && d1[..len1] == d2[..len2]
  {
    if len1 < len2 {
      NumDigitsMonotone(len1, len2);
    } else if len2 < len1 {
      NumDigitsMonotone(len2, len1);
    }
    var p := Eip191Preimage(d1, len1);
    assert p[|p| - len1..] == d1[..len1];
  }

  /** Only the first `len` bytes of the message are hashed. */
  lemma Eip191ReadsPrefix(h: Hash, d1: seq<byte>, d2: seq<byte>, len: nat)
    requires len <= |d1| && len <= |d2| && len <= SizeMax
    requires d1[..len] == d2[..len]
    ensures Keccak256Eip191(h, d1, len) == Keccak256Eip191(h, d2, len)
  {
    assert Eip191Preimage(d1, len) == Eip191Preimage(d2, len);
  }

  /** With all four documents present, the wrapper reports `true` exactly
      when the EIP-712 hasher produces a digest, and returns that digest. */
  lemma WrapperPassesDigest(h: Hash, primaryType: Doc, types: TypesDoc, domain: Doc, message: Doc)
    ensures var r := EthereumTypedDataHashV4(h, Some(primaryType), Some(types), Some(domain), Some(message));
      match TypedDataHashV4(h, primaryType, types, domain, message)
      case Fail(e) => r == Fail(e)
      case Ok(None) => r == Ok((false, Zeros(WordSize)))
      case Ok(Some(d)) => r == Ok((true, d))
  {
  }
}

=== FILE: keccak.dfy ===
/** The hash primitive the hasher is layered on.

    Keccak-256 (the pre-standard SHA-3 variant of the wallet's sha3 library)
    is not modelled: every operation that hashes takes the hash as a
    parameter of type `Hash`, about which only the output width is known.
    A hash context (`sha3_256_Init`, `sha3_Update`, `keccak_Final`) is the
    byte sequence absorbed so far; finalising it applies the `Hash`. */
module Keccak {
  import opened Uint8

  /** Width of a digest and of every ABI word. */
  const WordSize: nat := 32

  function Zeros(n: nat): (r: seq<byte>)
    ensures |r| == n
    ensures forall i :: 0 <= i < n ==> r[i] == 0
  {
    seq(n, _ => 0 as byte)
  }

  /** A 256-bit hash function on byte strings. */
  type Hash = f: seq<byte> -> seq<byte> | forall b :: |f(b)| == WordSize
    witness (b: seq<byte>) => Zeros(WordSize)
}

=== FILE: type_encoder.dfy ===
/** The type half of the EIP-712 hasher: the classifier `encodableType`, its
    registry of user-defined type names, and `parseType`, which builds the
    canonical type string that `encodeType` in EIP-712 defines
    (components/ethereum/eip712/eip712.c:152-366).

    The C code keeps the registry in the global `udefList` and clears it
    before every top-level `parseType`; here it is a value threaded through
    the calls, and `TypeString` starts each encoding from an empty one. */
module TypeEncoder {
  import opened Errors
  import opened CString

  /** One entry of a struct's field array.  The C code reads the value of the
      entry's first property as the field name and that of its second as the
      field type, whatever the properties are called. */
  datatype Field = Field(name: string, typ: string)

  /** One property of the `types` object: a struct name and its fields. */
  datatype TypeDef = TypeDef(name: string, fields: seq<Field>)

  /** The `types` object, in document order. */
  type Schema = seq<TypeDef>

  /** `basicType` of eip712.c:58-71. */
  datatype BasicType =
    | NotEncodable
    | Address
    | String
    | Uint
    | Int
    | Bytes
    | BytesN
    | Bool
    | UdefType
    | PrevUserdef
    | TooManyUdefs

  /** MAX_USERDEF_TYPES: slots of the registry. */
  const MaxUserdefTypes: nat := 10
  /** MAX_TYPESTRING: size of the buffer a type name is copied into. */
  const MaxTypeString: nat := 33
  /** `size_t` is 32 bits wide on the wallet's processor. */
  const SizeModulus: nat := 0x1_0000_0000

  /** The filled slots of `udefList`, in the order they were filled.  Slots
      are filled front to back and only ever cleared all together, so the
      non-NULL slots are always a prefix of the array. */
  type Registry = r: seq<string> | |r| <= MaxUserdefTypes

  /** `json_getProperty(types, name)`: the first struct of that name. */
  function LookupType(schema: Schema, name: string): (r: Option<TypeDef>)
    ensures r.Some? ==> r.value in schema && r.value.name == name
    ensures r.None? <==> forall i :: 0 <= i < |schema| ==> schema[i].name != name
    ensures forall k :: 0 <= k < |schema| && schema[k].name == name
                        && (forall j :: 0 <= j < k ==> schema[j].name != name) ==>
      r == Some(schema[k])
  {
    if schema == [] then None
    else if schema[0].name == name then Some(schema[0])
    else LookupType(schema[1..], name)
  }

  // ------------------------------------------------------ encodableType

  /** The N of `bytesN` as line 184 reads it: `strtol` of the text after
      `bytes`, truncated to 8 bits. */
  function BytesWidth(t: string): nat
  {
    ToUint8(StrToL(Drop(t, 5), 10))
  }

  /** Lines 156-198: the classes decided by the type text alone, or None
      when the text falls through to the registry. */
  function PrimitiveType(t: string): Option<BasicType>
  {
    if StrnEq(t, "address", 7) then Some(Address)
    else if StrnEq(t, "string", 6) then Some(String)
    else if StrnEq(t, "int", 3) then Some(Int)
    else if StrnEq(t, "uint", 4) then Some(Uint)
    else if StrnEq(t, "bytes", 5) then
      if t == "bytes" then Some(Bytes)
      else if BytesWidth(t) > 32 then Some(NotEncodable)
      else Some(BytesN)
    else if t == "bool" then Some(Bool)
    else None
  }

  /** The names the classifier decides without the registry. */
  predicate IsPrimitiveName(t: string)
  {
    HasPrefix(t, "address") || HasPrefix(t, "string") || HasPrefix(t, "int")
    || HasPrefix(t, "uint") || HasPrefix(t, "bytes") || t == "bool"
  }

  /** Lines 203-206: the candidate compared with the stored names is the
      type text copied into a 33-byte buffer and cut at its first `[`. */
  function RegistryKey(t: string): string
  {
    StrtokBuffer(Truncate(t, MaxTypeString - 1), '[')
  }

  /** Line 210: `strncmp(stored, key, strlen(stored) - strlen(key)) == 0`,
      where the length difference is an unsigned `size_t`. */
  predicate RegistryMatch(stored: string, key: string)
  {
    StrnEq(stored, key, (|stored| - |key|) % SizeModulus)
  }

  /** Lines 201-227 from slot `i` on: the first filled slot that matches
      gives PREV_USERDEF, the first empty slot receives the type text. */
  function ScanRegistry(reg: Registry, t: string, i: nat): (r: (BasicType, Registry))
    requires i <= |reg|
    ensures r.0 == PrevUserdef <==> exists j :: i <= j < |reg| && RegistryMatch(reg[j], RegistryKey(t))
    ensures r.0 == UdefType <==>
      |reg| < MaxUserdefTypes && forall j :: i <= j < |reg| ==> !RegistryMatch(reg[j], RegistryKey(t))
    ensures r.0 == TooManyUdefs <==>
      |reg| == MaxUserdefTypes && forall j :: i <= j < |reg| ==> !RegistryMatch(reg[j], RegistryKey(t))
    ensures r.0 == UdefType ==> r.1 == reg + [t]
    ensures r.0 != UdefType ==> r.1 == reg
    decreases |reg| - i
  {
    if i == |reg| then
      if |reg| < MaxUserdefTypes then (UdefType, reg + [t]) else (TooManyUdefs, reg)
    else if RegistryMatch(reg[i], RegistryKey(t)) then (PrevUserdef, reg)
    else ScanRegistry(reg, t, i + 1)
  }

  /** `encodableType` (lines 152-230): classify a field type, registering
      a user-defined name the first time it is seen. */
  function EncodableType(reg: Registry, t: string): (r: (BasicType, Registry))
    ensures r.0 == Address <==> HasPrefix(t, "address")
    ensures r.0 == String <==> HasPrefix(t, "string")
    ensures r.0 == Int <==> HasPrefix(t, "int")
    ensures r.0 == Uint <==> HasPrefix(t, "uint")
    ensures r.0 == Bytes <==> t == "bytes"
    ensures r.0 == BytesN <==> HasPrefix(t, "bytes") && t != "bytes" && BytesWidth(t) <= 32
    ensures r.0 == NotEncodable <==> HasPrefix(t, "bytes") && t != "bytes" && BytesWidth(t) > 32
    ensures r.0 == Bool <==> t == "bool"
    ensures !IsPrimitiveName(t) ==>
      (r.0 == PrevUserdef <==> exists j :: 0 <= j < |reg| && RegistryMatch(reg[j], RegistryKey(t)))
    ensures !IsPrimitiveName(t) ==>
      (r.0 == UdefType <==>
        |reg| < MaxUserdefTypes && forall j :: 0 <= j < |reg| ==> !RegistryMatch(reg[j], RegistryKey(t)))
    ensures !IsPrimitiveName(t) ==> r.0 in {UdefType, PrevUserdef, TooManyUdefs}
    ensures r.0 == UdefType ==> r.1 == reg + [t]
    ensures r.0 != UdefType ==> r.1 == reg
  {
    StrnEqIsPrefix(t, "address");
    StrnEqIsPrefix(t, "string");
    StrnEqIsPrefix(t, "int");
    StrnEqIsPrefix(t, "uint");
    StrnEqIsPrefix(t, "bytes");
    PrefixHead(t, "address");
    PrefixHead(t, "string");
    PrefixHead(t, "int");
    PrefixHead(t, "uint");
    PrefixHead(t, "bytes");
    match PrimitiveType(t)
    case Some(c) => (c, reg)
    case None => ScanRegistry(reg, t, 0)
  }

  // ------------------------------------------------------------ parseType

  /** Lines 342-344: `type name`. */
  function Member(f: Field): string
  {
    f.typ + " " + f.name
  }

  /** Lines 342-345 over all fields: `type name,` for each. */
  function MemberList(fields: seq<Field>): string
  {
    if fields == [] then "" else Member(fields[0]) + "," + MemberList(fields[1..])
  }

  /** Lines 349-359: a trailing comma becomes `)`, otherwise `)` is appended. */
  function CloseParen(s: string): string
  {
    if EndsWith(s, ',') then s[..|s| - 1] + ")" else s + ")"
  }

  /** The text one struct contributes by itself: `Name(type name,...)`. */
  function Declaration(d: TypeDef): string
  {
    CloseParen(d.name + "(" + MemberList(d.fields))
  }

  /** The name `parseType` recurses on for a field type (lines 296-326):
      an array type loses its `[...]` suffix. */
  function ReferencedName(t: string): string
  {
    if EndsWith(t, ']') then StrtokBuffer(Truncate(t, MaxTypeString - 1), '[') else t
  }

  /** The declaration contributed for a registered field type. */
  function DefinitionOf(schema: Schema, t: string): string
  {
    match LookupType(schema, ReferencedName(t))
    case Some(d) => Declaration(d)
    case None => ""
  }

  /** The declarations of registered field types, in registration order. */
  function Definitions(schema: Schema, ts: seq<string>): string
  {
    if ts == [] then "" else DefinitionOf(schema, ts[0]) + Definitions(schema, ts[1..])
  }

  /** The statuses `parseType` can end with. */
  predicate IsParseTypeError(e: Status)
  {
    e in {JsonTypeSErr, UdefsOverflow, TypeNotEncodable, UdefNameError}
  }

  /** `parseType` (lines 243-366): the text appended for struct `name` and the
      registry afterwards.  The text is the struct's own declaration followed
      by the declarations of the struct types registered during the call, in
      the order they were registered (depth-first, first discovery). */
  function ParseType(schema: Schema, name: string, reg: Registry): (r: Result<(string, Registry)>)
    ensures LookupType(schema, name).None? ==> r == Fail(JsonTypeSErr)
    ensures r.Ok? ==> LookupType(schema, name).Some? && reg <= r.value.1
    ensures r.Ok? ==>
      r.value.0 == Declaration(LookupType(schema, name).value) + Definitions(schema, r.value.1[|reg|..])
    ensures r.Fail? ==> IsParseTypeError(r.error)
    decreases MaxUserdefTypes - |reg|, 3, 0
  {
    match LookupType(schema, name)
    case None => Fail(JsonTypeSErr)
    case Some(d) =>
      var parsed :- ParseFields(schema, d.fields, reg);
      Ok((CloseParen(d.name + "(" + parsed.0) + parsed.1, parsed.2))
  }

  /** The field loop of `parseType` (lines 271-348): the member list, the
      declarations of newly registered struct types, and the registry. */
  function ParseFields(schema: Schema, fields: seq<Field>, reg: Registry)
    : (r: Result<(string, string, Registry)>)
    ensures r.Ok? ==> r.value.0 == MemberList(fields)
    ensures r.Ok? ==> reg <= r.value.2
    ensures r.Ok? ==> r.value.1 == Definitions(schema, r.value.2[|reg|..])
    ensures r.Fail? ==> IsParseTypeError(r.error)
    decreases MaxUserdefTypes - |reg|, 2, |fields|
  {
    if fields == [] then
      assert reg[|reg|..] == [];
      Ok(("", "", reg))
    else
      var f := fields[0];
      var (cls, reg1) := EncodableType(reg, f.typ);
      var sub :- ParseField(schema, f.typ, reg);
      var rest :- ParseFields(schema, fields[1..], sub.1);
      DefinitionsOfRegistered(schema, reg, cls, f.typ, reg1, sub, rest.2);
      Ok((Member(f) + "," + rest.0, sub.0 + rest.1, rest.2))
  }

  /** One turn of the field loop (lines 292-335) for a field of type `t`:
      the declarations it appends and the registry after it, or the status
      that stops the loop.  A full registry is UDEFS_OVERFLOW and an
      unencodable type TYPE_NOT_ENCODABLE; any other type that is not a new
      struct goes through without text. */
  function ParseField(schema: Schema, t: string, reg: Registry): (r: Result<(string, Registry)>)
    ensures r.Fail? ==> IsParseTypeError(r.error)
    ensures EncodableType(reg, t).0 == TooManyUdefs ==> r == Fail(UdefsOverflow)
    ensures EncodableType(reg, t).0 == NotEncodable ==> r == Fail(TypeNotEncodable)
    ensures EncodableType(reg, t).0 !in {UdefType, TooManyUdefs, NotEncodable} ==> r == Ok(("", reg))
    decreases MaxUserdefTypes - |reg|, 1, 0
  {
    var (cls, reg1) := EncodableType(reg, t);
    if cls == UdefType then ParseReferenced(schema, t, reg1)
    else if cls == TooManyUdefs then Fail(UdefsOverflow)
    else if cls == NotEncodable then Fail(TypeNotEncodable)
    else Ok(("", reg1))
  }

  /** Lines 296-326: the text appended for a newly registered field type
      `t`, which is the last entry of `reg`. */
  function ParseReferenced(schema: Schema, t: string, reg: Registry): (r: Result<(string, Registry)>)
    ensures r.Ok? ==> reg <= r.value.1
    ensures r.Ok? ==> r.value.0 == DefinitionOf(schema, t) + Definitions(schema, r.value.1[|reg|..])
    ensures r.Fail? ==> IsParseTypeError(r.error)
    decreases MaxUserdefTypes - |reg|, 4, 0
  {
    if EndsWith(t, ']') then
      if |t| > MaxTypeString - 1 then Fail(UdefNameError)
      else ParseType(schema, StrtokBuffer(Truncate(t, MaxTypeString - 1), '['), reg)
    else ParseType(schema, t, reg)
  }

  /** `encode`, lines 923-937: clear the registry, then `parseType`. */
  function TypeString(schema: Schema, name: string): (r: Result<string>)
    ensures LookupType(schema, name).None? ==> r == Fail(JsonTypeSErr)
    ensures r.Ok? ==> HasPrefix(r.value, Declaration(LookupType(schema, name).value))
    ensures r.Fail? ==> IsParseTypeError(r.error)
  {
    var parsed :- ParseType(schema, name, []);
    Ok(parsed.0)
  }

  // --------------------------------------------------------------- lemmas

  lemma PrefixHead(t: string, p: string)
    requires |p| > 0
    ensures HasPrefix(t, p) ==> t[0] == p[0]
  {
    if HasPrefix(t, p) {
      assert t[..|p|][0] == p[0];
    }
  }

  lemma {:induction false} DefinitionsAppend(schema: Schema, a: seq<string>, b: seq<string>)
    ensures Definitions(schema, a + b) == Definitions(schema, a) + Definitions(schema, b)
  {
    if a == [] {
      assert a + b == b;
    } else {
      assert (a + b)[1..] == a[1..] + b;
      DefinitionsAppend(schema, a[1..], b);
    }
  }

  /** The registry bookkeeping behind `ParseFields`: the declarations of one
      field followed by those of the remaining fields are the declarations
      of everything registered meanwhile. */
  lemma DefinitionsOfRegistered(schema: Schema, reg: Registry, cls: BasicType, t: string,
                                reg1: Registry, sub: (string, Registry), reg3: Registry)
    requires cls == UdefType ==> reg1 == reg + [t]
    requires cls != UdefType ==> reg1 == reg && sub == ("", reg1)
    requires cls == UdefType ==> reg1 <= sub.1
    requires cls == UdefType ==>
      sub.0 == DefinitionOf(schema, t) + Definitions(schema, sub.1[|reg1|..])
    requires sub.1 <= reg3
    ensures reg <= reg3
    ensures sub.0 + Definitions(schema, reg3[|sub.1|..]) == Definitions(schema, reg3[|reg|..])
  {
    if cls == UdefType {
      DefinitionsOfNew(schema, reg, t, sub.1, reg3);
    }
  }

  /** The case of a newly registered `t`: `reg3` extends `reg2`, which
      extends `reg` followed by `t`. */
  lemma DefinitionsOfNew(schema: Schema, reg: Registry, t: string, reg2: Registry, reg3: Registry)
    requires reg + [t] <= reg2 <= reg3
    ensures DefinitionOf(schema, t) + Definitions(schema, reg2[|reg| + 1..]) + Definitions(schema, reg3[|reg2|..])
      == Definitions(schema, reg3[|reg|..])
  {
    var mid, tail := reg2[|reg| + 1..], reg3[|reg2|..];
    assert reg3[|reg|..] == [t] + mid + tail;
    DefinitionsAppend(schema, [t] + mid, tail);
    DefinitionsAppend(schema, [t], mid);
    assert Definitions(schema, [t]) == DefinitionOf(schema, t);
  }
}

=== FILE: type_properties.dfy ===
/** What the type encoder produces: the shape of a declaration, which
    field types make `parseType` fail, how the registry of user-defined
    names matches, and the type strings of small schemas. */
module TypeProperties {
  import opened Errors
  import opened CString
  import opened TypeEncoder

  // --------------------------------------------------------- declarations

  /** The members of a struct joined by commas, without a trailing one. */
  function JoinMembers(fields: seq<Field>): string
  {
    if fields == [] then ""
    else if |fields| == 1 then Member(fields[0])
    else Member(fields[0]) + "," + JoinMembers(fields[1..])
  }

  lemma {:induction false} MemberListJoin(fields: seq<Field>)
    requires fields != []
    ensures MemberList(fields) == JoinMembers(fields) + ","
  {
    if |fields| == 1 {
      assert MemberList(fields[1..]) == "";
    } else {
      MemberListJoin(fields[1..]);
    }
  }

  /** A struct declares itself as `Name(type1 name1,type2 name2,...)`, and a
      struct without fields as `Name()`: the trailing comma of the member
      list is replaced by the closing parenthesis. */
  lemma DeclarationShape(d: TypeDef)
    ensures Declaration(d) == d.name + "(" + JoinMembers(d.fields) + ")"
    ensures d.fields == [] ==> Declaration(d) == d.name + "()"
  {
    if d.fields == [] {
      assert !EndsWith(d.name + "(", ',');
    } else {
      MemberListJoin(d.fields);
      var s := d.name + "(" + JoinMembers(d.fields) + ",";
      assert d.name + "(" + MemberList(d.fields) == s;
      assert EndsWith(s, ',');
      assert s[..|s| - 1] == d.name + "(" + JoinMembers(d.fields);
    }
  }

  // ------------------------------------------------------------ failures

  /** A `bytesN` type whose N, read by `strtol` and cut to 8 bits, exceeds 32. */
  predicate Unencodable(t: string)
  {
    HasPrefix(t, "bytes") && t != "bytes" && BytesWidth(t) > 32
  }

  /** A loop that goes through passes its first field and the rest of it. */
  lemma ParseFieldsOkSplits(schema: Schema, fields: seq<Field>, reg: Registry)
    requires |fields| > 0 && ParseFields(schema, fields, reg).Ok?
    ensures ParseField(schema, fields[0].typ, reg).Ok?
    ensures ParseFields(schema, fields[1..], ParseField(schema, fields[0].typ, reg).value.1).Ok?
  {
  }

  /** The turn of a field of an unencodable `bytesN` type fails with
      TYPE_NOT_ENCODABLE, whatever the registry. */
  lemma UnencodableFieldStep(schema: Schema, t: string, reg: Registry)
    requires Unencodable(t)
    ensures ParseField(schema, t, reg) == Fail(TypeNotEncodable)
  {
  }

  /** A loop that goes through has no field of an unencodable type. */
  lemma {:induction false} ParseFieldsOkEncodable(schema: Schema, fields: seq<Field>,
                                                  reg: Registry, i: nat)
    requires i < |fields| && ParseFields(schema, fields, reg).Ok?
    ensures !Unencodable(fields[i].typ)
    decreases i
  {
    ParseFieldsOkSplits(schema, fields, reg);
    if i == 0 {
      if Unencodable(fields[0].typ) {
        UnencodableFieldStep(schema, fields[0].typ, reg);
      }
    } else {
      assert fields[1..][i - 1] == fields[i];
      ParseFieldsOkEncodable(schema, fields[1..], ParseField(schema, fields[0].typ, reg).value.1, i - 1);
    }
  }

  /** A struct with a field of an unencodable `bytesN` type has no type
      string, however its other fields are typed; as its first field, the
      status is TYPE_NOT_ENCODABLE. */
  lemma UnencodableFieldFails(schema: Schema, name: string, i: nat)
    requires LookupType(schema, name).Some?
    requires i < |LookupType(schema, name).value.fields|
    requires Unencodable(LookupType(schema, name).value.fields[i].typ)
    ensures TypeString(schema, name).Fail?
    ensures i == 0 ==> TypeString(schema, name) == Fail(TypeNotEncodable)
  {
    var fields := LookupType(schema, name).value.fields;
    if ParseFields(schema, fields, []).Ok? {
      ParseFieldsOkEncodable(schema, fields, [], i);
    }
    if i == 0 {
      UnencodableFieldStep(schema, fields[0].typ, []);
      StepFailureStops(schema, fields, [], 0);
    }
  }

  /** The status a field of type `t` that `encodableType` classed as `cls`
      fails with by its class alone (lines 296-335), or None when its class
      lets it through to the parse of the struct it names: a full registry
      is UDEFS_OVERFLOW, an unencodable type TYPE_NOT_ENCODABLE, a struct
      array type over 32 characters UDEF_NAME_ERROR and an undeclared struct
      JSON_TYPE_S_ERR. */
  function FieldFailure(schema: Schema, cls: BasicType, t: string): Option<Status>
  {
    if cls == TooManyUdefs then Some(UdefsOverflow)
    else if cls == NotEncodable then Some(TypeNotEncodable)
    else if cls != UdefType then None
    else if EndsWith(t, ']') && |t| > MaxTypeString - 1 then Some(UdefNameError)
    else if LookupType(schema, ReferencedName(t)).None? then Some(JsonTypeSErr)
    else None
  }

  /** A field failing by its class makes its turn of the loop fail with
      that status. */
  lemma FieldFailureStopsField(schema: Schema, t: string, reg: Registry)
    requires FieldFailure(schema, EncodableType(reg, t).0, t).Some?
    ensures ParseField(schema, t, reg) == Fail(FieldFailure(schema, EncodableType(reg, t).0, t).value)
  {
    var (cls, reg1) := EncodableType(reg, t);
    if cls == UdefType && !(EndsWith(t, ']') && |t| > MaxTypeString - 1) {
      assert ParseReferenced(schema, t, reg1) == Fail(JsonTypeSErr);
    }
  }

  /** A loop over a non-empty prefix that goes through passes its first
      field, and the rest of the loop continues from there. */
  lemma ParseFieldsCons(schema: Schema, fields: seq<Field>, reg: Registry, k: nat)
    requires 0 < k <= |fields| && ParseFields(schema, fields[..k], reg).Ok?
    ensures var sub := ParseField(schema, fields[0].typ, reg);
      sub.Ok? && ParseFields(schema, fields[1..][..k - 1], sub.value.1).Ok?
      && ParseFields(schema, fields[1..][..k - 1], sub.value.1).value.2 == ParseFields(schema, fields[..k], reg).value.2
      && (ParseFields(schema, fields[1..], sub.value.1).Fail? ==>
            ParseFields(schema, fields, reg) == ParseFields(schema, fields[1..], sub.value.1))
  {
    var pre := fields[..k];
    assert pre[0] == fields[0];
    assert pre[1..] == fields[1..][..k - 1];
  }

  /** When fields 0 to i-1 go through and leave the registry `reg'`, and the
      turn of field i fails under `reg'` (by its class, or inside the struct
      it names, lines 311-326), the loop stops with that turn's status. */
  lemma {:induction false} StepFailureStops(schema: Schema, fields: seq<Field>, reg: Registry, i: nat)
    requires i < |fields|
    requires ParseFields(schema, fields[..i], reg).Ok?
    requires ParseField(schema, fields[i].typ, ParseFields(schema, fields[..i], reg).value.2).Fail?
    ensures ParseFields(schema, fields, reg)
      == Fail(ParseField(schema, fields[i].typ, ParseFields(schema, fields[..i], reg).value.2).error)
    decreases i
  {
    if i > 0 {
      var sub := ParseField(schema, fields[0].typ, reg);
      ParseFieldsCons(schema, fields, reg, i);
      assert fields[1..][i - 1] == fields[i];
      StepFailureStops(schema, fields[1..], sub.value.1, i - 1);
    }
  }

  /** The statuses by class: when fields 0 to i-1 go through and field i
      fails by its class, the loop stops with that status. */
  lemma ParseFieldsFirstFailure(schema: Schema, fields: seq<Field>, reg: Registry, i: nat)
    requires i < |fields|
    requires ParseFields(schema, fields[..i], reg).Ok?
    requires FieldFailure(schema, EncodableType(ParseFields(schema, fields[..i], reg).value.2, fields[i].typ).0,
                          fields[i].typ).Some?
    ensures ParseFields(schema, fields, reg)
      == Fail(FieldFailure(schema, EncodableType(ParseFields(schema, fields[..i], reg).value.2, fields[i].typ).0,
                           fields[i].typ).value)
  {
    FieldFailureStopsField(schema, fields[i].typ, ParseFields(schema, fields[..i], reg).value.2);
    StepFailureStops(schema, fields, reg, i);
  }

  /** From the top: the type string of a struct whose field i is the first
      whose turn fails, by its class or inside the struct it names, has
      that turn's status. */
  lemma TypeStringStepFailure(schema: Schema, name: string, i: nat)
    requires LookupType(schema, name).Some?
    requires var fields := LookupType(schema, name).value.fields;
      i < |fields| && ParseFields(schema, fields[..i], []).Ok?
      && ParseField(schema, fields[i].typ, ParseFields(schema, fields[..i], []).value.2).Fail?
    ensures var fields := LookupType(schema, name).value.fields;
      TypeString(schema, name)
        == Fail(ParseField(schema, fields[i].typ, ParseFields(schema, fields[..i], []).value.2).error)
  {
    StepFailureStops(schema, LookupType(schema, name).value.fields, [], i);
  }

  /** From the top, by class: the type string of a struct whose field i is
      the first to fail, and fails by its own class, has that class's
      status. */
  lemma TypeStringFirstFailure(schema: Schema, name: string, i: nat)
    requires LookupType(schema, name).Some?
    requires var fields := LookupType(schema, name).value.fields;
      i < |fields| && ParseFields(schema, fields[..i], []).Ok?
      && FieldFailure(schema, EncodableType(ParseFields(schema, fields[..i], []).value.2, fields[i].typ).0,
                      fields[i].typ).Some?
    ensures var fields := LookupType(schema, name).value.fields;
      TypeString(schema, name)
        == Fail(FieldFailure(schema, EncodableType(ParseFields(schema, fields[..i], []).value.2, fields[i].typ).0,
                             fields[i].typ).value)
  {
    ParseFieldsFirstFailure(schema, LookupType(schema, name).value.fields, [], i);
  }

  // ------------------------------------------------------------- registry

  lemma RegistryKeyShort(t: string)
    ensures |RegistryKey(t)| <= MaxTypeString - 1
  {
    assert HasPrefix(Truncate(t, MaxTypeString - 1), RegistryKey(t));
  }

  /** Line 210 in plain terms: a stored name matches a candidate when the
      two have the same length, whatever their text, or when the stored
      name is longer and its first (length difference) characters agree
      with the candidate's; a shorter stored name never matches. */
  lemma RegistryMatchMeaning(stored: string, t: string)
    requires |stored| < SizeModulus
    ensures var key := RegistryKey(t); var n := |stored| - |key|;
      RegistryMatch(stored, key) <==> n == 0 || (0 < n <= |key| && stored[..n] == key[..n])
  {
    var key := RegistryKey(t);
    RegistryKeyShort(t);
    var n := |stored| - |key|;
    if n < 0 {
      assert (|stored| - |key|) % SizeModulus == SizeModulus + n;
    } else {
      assert (|stored| - |key|) % SizeModulus == n;
    }
  }

  /** Consequence: once a name is registered, any other user-defined type
      name of the same length is taken for it and never declared. */
  lemma SameLengthIsPrevious(reg: Registry, t: string, j: nat)
    requires !IsPrimitiveName(t) && j < |reg| && |reg[j]| == |RegistryKey(t)|
    ensures EncodableType(reg, t).0 == PrevUserdef
    ensures EncodableType(reg, t).1 == reg
  {
    RegistryMatchMeaning(reg[j], t);
  }

  // ----------------------------------------------------------- examples

  const PersonDef := TypeDef("Person", [Field("name", "string"), Field("wallet", "address")])
  const MailDef := TypeDef("Mail", [Field("from", "Person"), Field("to", "Person"), Field("contents", "string")])

  const MailSchema: Schema := [PersonDef, MailDef]

  lemma PersonIsStruct()
    ensures !IsPrimitiveName("Person") && RegistryKey("Person") == "Person"
  {
    var t := "Person";
    assert t[0] == 'P';
    PrefixHead(t, "address");
    PrefixHead(t, "string");
    PrefixHead(t, "int");
    PrefixHead(t, "uint");
    PrefixHead(t, "bytes");
    assert t != "bool";
    assert Truncate(t, MaxTypeString - 1) == t;
    assert '[' !in t;
  }

  lemma StringClass(reg: Registry)
    ensures EncodableType(reg, "string") == (String, reg)
  {
    assert HasPrefix("string", "string");
  }

  lemma AddressClass(reg: Registry)
    ensures EncodableType(reg, "address") == (Address, reg)
  {
    assert HasPrefix("address", "address");
  }

  /** A field of a class that needs no recursion adds its member and
      leaves the registry and the declarations to the remaining fields. */
  lemma PlainFieldStep(schema: Schema, fields: seq<Field>, reg: Registry)
    requires fields != []
    requires EncodableType(reg, fields[0].typ).0 !in {UdefType, TooManyUdefs, NotEncodable}
    ensures ParseFields(schema, fields, reg).Ok? <==> ParseFields(schema, fields[1..], reg).Ok?
    ensures ParseFields(schema, fields, reg).Ok? ==>
      ParseFields(schema, fields, reg).value.2 == ParseFields(schema, fields[1..], reg).value.2
  {
  }

  /** A field of a newly registered struct type parses that type first and
      goes on with the registry it leaves. */
  lemma NewStructStep(schema: Schema, fields: seq<Field>, reg: Registry, after: Registry)
    requires fields != []
    requires EncodableType(reg, fields[0].typ).0 == UdefType
    requires ParseReferenced(schema, fields[0].typ, reg + [fields[0].typ]).Ok?
    requires ParseReferenced(schema, fields[0].typ, reg + [fields[0].typ]).value.1 == after
    ensures ParseFields(schema, fields, reg).Ok? <==> ParseFields(schema, fields[1..], after).Ok?
    ensures ParseFields(schema, fields, reg).Ok? ==>
      ParseFields(schema, fields, reg).value.2 == ParseFields(schema, fields[1..], after).value.2
  {
  }

  /** A struct whose fields parse: `parseType` succeeds with the registry
      the fields leave. */
  lemma StructStep(schema: Schema, name: string, reg: Registry)
    requires LookupType(schema, name).Some?
    requires ParseFields(schema, LookupType(schema, name).value.fields, reg).Ok?
    ensures ParseType(schema, name, reg).Ok?
    ensures ParseType(schema, name, reg).value.1
      == ParseFields(schema, LookupType(schema, name).value.fields, reg).value.2
  {
  }

  lemma ThreeFieldDeclaration(name: string, f0: Field, f1: Field, f2: Field)
    ensures Declaration(TypeDef(name, [f0, f1, f2]))
      == name + "(" + Member(f0) + "," + Member(f1) + "," + Member(f2) + ")"
  {
    var fs := [f0, f1, f2];
    assert fs[1..] == [f1, f2];
    assert fs[1..][1..] == [f2];
    assert JoinMembers(fs[1..]) == Member(f1) + "," + Member(f2);
    assert JoinMembers(fs) == Member(f0) + "," + (Member(f1) + "," + Member(f2));
    DeclarationShape(TypeDef(name, fs));
  }

  lemma PersonFieldsParse(schema: Schema)
    requires schema == MailSchema
    ensures ParseFields(schema, PersonDef.fields, ["Person"]).Ok?
    ensures ParseFields(schema, PersonDef.fields, ["Person"]).value.2 == ["Person"]
  {
    var fs := PersonDef.fields;
    StringClass(["Person"]);
    AddressClass(["Person"]);
    assert ParseFields(schema, fs[2..], ["Person"]) == Ok(("", "", ["Person"]));
    assert fs[1..][1..] == fs[2..];
    PlainFieldStep(schema, fs[1..], ["Person"]);
    PlainFieldStep(schema, fs, ["Person"]);
  }

  /** `Person`, once registered, parses without registering anything else. */
  lemma PersonParses(schema: Schema, name: string, reg: Registry)
    requires schema == MailSchema && name == "Person" && reg == ["Person"]
    ensures ParseType(schema, name, reg).Ok? && ParseType(schema, name, reg).value.1 == reg
  {
    assert LookupType(schema, name) == Some(PersonDef);
    PersonFieldsParse(schema);
    StructStep(schema, name, reg);
  }

  lemma MailTailParses(schema: Schema, fs: seq<Field>, reg: Registry)
    requires schema == MailSchema && fs == MailDef.fields[1..] && reg == ["Person"]
    ensures ParseFields(schema, fs, reg).Ok? && ParseFields(schema, fs, reg).value.2 == reg
  {
    PersonIsStruct();
    SameLengthIsPrevious(reg, "Person", 0);
    StringClass(reg);
    assert fs[0].typ == "Person" && fs[1].typ == "string";
    assert ParseFields(schema, fs[2..], reg) == Ok(("", "", reg));
    assert fs[1..][1..] == fs[2..];
    PlainFieldStep(schema, fs[1..], reg);
    PlainFieldStep(schema, fs, reg);
  }

  /** The first struct type met is always registered. */
  lemma FirstStruct(t: string)
    requires !IsPrimitiveName(t)
    ensures EncodableType([], t) == (UdefType, [t])
  {
    var r := EncodableType([], t);
    assert r.0 == UdefType;
    assert [] + [t] == [t];
  }

  lemma PersonReferenced(schema: Schema, t: string)
    requires schema == MailSchema && t == "Person"
    ensures ParseReferenced(schema, t, [t]).Ok? && ParseReferenced(schema, t, [t]).value.1 == [t]
  {
    PersonParses(schema, t, [t]);
    assert !EndsWith(t, ']');
  }

  lemma MailFieldsParse(schema: Schema, fs: seq<Field>)
    requires schema == MailSchema && fs == MailDef.fields
    ensures ParseFields(schema, fs, []).Ok? && ParseFields(schema, fs, []).value.2 == ["Person"]
  {
    PersonIsStruct();
    assert fs[0].typ == "Person";
    FirstStruct(fs[0].typ);
    PersonReferenced(schema, fs[0].typ);
    MailTailParses(schema, fs[1..], ["Person"]);
    NewStructStep(schema, fs, [], ["Person"]);
  }

  lemma MailParses(schema: Schema, name: string)
    requires schema == MailSchema && name == "Mail"
    ensures ParseType(schema, name, []).Ok?
    ensures ParseType(schema, name, []).value.0 == Declaration(MailDef) + Declaration(PersonDef)
  {
    assert LookupType(schema, name) == Some(MailDef);
    assert LookupType(schema, "Person") == Some(PersonDef);
    MailFieldsParse(schema, MailDef.fields);
    StructStep(schema, name, []);
    var r := ParseType(schema, name, []);
    assert r.value.1[0..] == ["Person"];
    assert ReferencedName("Person") == "Person";
    assert Definitions(schema, ["Person"]) == Declaration(PersonDef);
  }

  lemma TwoFieldDeclaration(name: string, f0: Field, f1: Field)
    ensures Declaration(TypeDef(name, [f0, f1])) == name + "(" + Member(f0) + "," + Member(f1) + ")"
  {
    var fs := [f0, f1];
    assert fs[1..] == [f1];
    assert JoinMembers(fs) == Member(f0) + "," + Member(f1);
    DeclarationShape(TypeDef(name, fs));
  }

  lemma Regroup(p: string, a: string, b: string, c: string, d: string)
    ensures p + a + b + c + d == p + (a + b + c + d)
  {
  }

  // The literals below are checked in pieces: comparing one long literal
  // with a concatenation costs the solver the square of its length.

  lemma MailPieces()
    ensures "Mail" + "(" + "Person from" + "," == "Mail(Person from,"
    ensures "Person to" + "," + "string contents" + ")" == "Person to,string contents)"
  {
  }

  lemma MailJoin()
    ensures "Mail(Person from," + "Person to,string contents)" == "Mail(Person from,Person to,string contents)"
  {
  }

  lemma MailDeclaration(d: TypeDef)
    requires d == MailDef
    ensures Declaration(d) == "Mail(Person from,Person to,string contents)"
  {
    var f0, f1, f2 := d.fields[0], d.fields[1], d.fields[2];
    assert d == TypeDef("Mail", [f0, f1, f2]);
    ThreeFieldDeclaration("Mail", f0, f1, f2);
    assert Member(f0) == "Person from" && Member(f1) == "Person to" && Member(f2) == "string contents";
    MailPieces();
    Regroup("Mail(Person from,", "Person to", ",", "string contents", ")");
    MailJoin();
  }

  lemma PersonPieces()
    ensures "Person" + "(" + "string name" + "," == "Person(string name,"
    ensures "Person(string name," + "address wallet" + ")" == "Person(string name,address wallet)"
  {
  }

  lemma PersonDeclaration(d: TypeDef)
    requires d == PersonDef
    ensures Declaration(d) == "Person(string name,address wallet)"
  {
    var f0, f1 := d.fields[0], d.fields[1];
    assert d == TypeDef("Person", [f0, f1]);
    TwoFieldDeclaration("Person", f0, f1);
    assert Member(f0) == "string name" && Member(f1) == "address wallet";
    PersonPieces();
  }

  /** The `Mail` example of EIP-712: the referenced struct is declared once,
      after the primary one. */
  lemma MailTypeString(schema: Schema, name: string)
    requires schema == MailSchema && name == "Mail"
    ensures TypeString(schema, name)
      == Ok("Mail(Person from,Person to,string contents)" + "Person(string name,address wallet)")
  {
    MailParses(schema, name);
    MailDeclaration(MailDef);
    PersonDeclaration(PersonDef);
  }
}

=== FILE: typed_data.dfy ===
/** The top level of the EIP-712 hasher (components/ethereum/eip712/eip712.c:910-1154):
    `encode`, which hashes one struct of a document; `ethereum_typed_hash`,
    which builds the final digest; `e712_types_values`, one pass of the
    signing request; and `eip712_typed_data_hash_v4`, which runs the domain
    pass and the message pass and returns the digest to sign. */
module TypedData {
  import opened Uint8
  import opened Errors
  import opened CString
  import opened Keccak
  import opened TypeEncoder
  import opened ValueEncoder

  /** A parsed JSON document: the members of its top-level object. */
  type Doc = seq<(string, Val)>

  /** `json_getProperty(doc, name)`: the first member of that name. */
  function Property(doc: Doc, name: string): (r: Option<Val>)
    ensures r.Some? ==> (name, r.value) in doc
    ensures r.None? <==> forall i :: 0 <= i < |doc| ==> doc[i].0 != name
    ensures forall k :: 0 <= k < |doc| && doc[k].0 == name && (forall j :: 0 <= j < k ==> doc[j].0 != name) ==>
      r == Some(doc[k].1)
  {
    if doc == [] then None
    else if doc[0].0 == name then
      assert doc[0] == (name, doc[0].1);
      Some(doc[0].1)
    else
      var r := Property(doc[1..], name);
      assert r.Some? ==> (name, r.value) in doc[1..];
      r
  }

  /** The types document with its `types` member already read as a schema;
      `types` is None when the document has no such member. */
  datatype TypesDoc = TypesDoc(types: Option<Schema>)

  const DomainType: string := "EIP712Domain"

  /** Whether `encode` treats `typeS` as the domain: `strncmp` over
      `sizeof("EIP712Domain")` characters, terminator included. */
  predicate IsDomainType(typeS: string)
  {
    StrnEq(typeS, DomainType, |DomainType| + 1)
  }

  /** The statuses `encode` can end with. */
  predicate IsEncodeError(e: Status)
  {
    IsParseValsError(e) || e in {JsonTypesPropErr, JsonDPropErr, JsonMPropErr, NullMsgHash}
  }

  /** The value of a struct as `hashStruct` of EIP-712 defines it: the hash
      of its type hash followed by its encoded fields. */
  function HashStruct(h: Hash, schema: Schema, d: TypeDef, typeString: string, v: Val): (r: Result<seq<byte>>)
    ensures r.Ok? ==> |r.value| == WordSize
    ensures r.Fail? ==> IsParseValsError(r.error)
  {
    var data :- EncodeData(h, schema, d.fields, v);
    Ok(h(h(CString.Bytes(typeString)) + data))
  }

  /** `encode` (lines 910-995): `hashStruct` of the struct `typeS` whose
      values are the `domain` member of `vals` (for `EIP712Domain`) or its
      `message` member (for any other type).  An empty message ends with
      NULL_MSG_HASH, which the caller accepts; an empty domain does not. */
  function Encode(h: Hash, types: TypesDoc, vals: Doc, typeS: string): (r: Result<seq<byte>>)
    ensures r.Ok? ==> |r.value| == WordSize
    ensures r.Fail? ==> IsEncodeError(r.error)
    ensures types.types.None? ==> r == Fail(JsonTypesPropErr)
    ensures r.Ok? ==> types.types.Some? && LookupType(types.types.value, typeS).Some?
  {
    match types.types
    case None => Fail(JsonTypesPropErr)
    case Some(schema) =>
      var typeString :- TypeString(schema, typeS);
      match LookupType(schema, typeS)
      case None => Fail(JsonTypesPropErr)
      case Some(d) =>
        StrnEqWhole(typeS, DomainType, |DomainType| + 1);
        var domain := IsDomainType(typeS);
        match Property(vals, if domain then "domain" else "message")
        case None => Fail(if domain then JsonDPropErr else JsonMPropErr)
        case Some(v) =>
          if !domain && (v == Obj([]) || v == Arr([])) then Fail(NullMsgHash)
          else HashStruct(h, schema, d, typeString, v)
  }

  /** `ethereum_typed_hash` (lines 997-1010): the hash of `0x19 0x01`, the
      domain separator and, when there is one, the message hash. */
  function TypedHash(h: Hash, domainSeparator: seq<byte>, messageHash: seq<byte>, hasMessageHash: bool)
    : (r: seq<byte>)
    requires |domainSeparator| == WordSize && |messageHash| == WordSize
    ensures |r| == WordSize
  {
    h([0x19, 0x01] + domainSeparator + (if hasMessageHash then messageHash else []))
  }

  /** The response fields `e712_types_values` fills in. */
  datatype Signature = Signature(
    domainSeparatorHash: seq<byte>,
    hasDomainSeparatorHash: bool,
    messageHash: seq<byte>,
    hasMessageHash: bool,
    hasMsgHash: bool)

  /** The zeroed response `eip712_typed_data_hash_v4` allocates. */
  const EmptySignature := Signature(Zeros(WordSize), false, Zeros(WordSize), false, false)

  /** Both hashes of a response are 32 bytes wide. */
  predicate Sized(s: Signature)
  {
    |s.domainSeparatorHash| == WordSize && |s.messageHash| == WordSize
  }

  /** The text of the `primaryType` member, when it is a text node. */
  function PrimaryTypeName(primaryType: Doc): (r: Option<string>)
    ensures r.Some? <==> Property(primaryType, "primaryType").Some? && Property(primaryType, "primaryType").value.Text?
    ensures r.Some? ==> Property(primaryType, "primaryType") == Some(Text(r.value))
  {
    match Property(primaryType, "primaryType")
    case Some(Text(s)) => Some(s)
    case _ => None
  }

  /** Which pass of a signing request: `eip712typevals` is 1 for the domain. */
  datatype Pass = DomainPass | MessagePass

  /** `e712_types_values` (lines 1012-1098) on parsed documents: the response
      after the pass, or the status the pass stopped with, leaving the
      response as it was.  The domain pass always hashes `EIP712Domain`; the
      message pass hashes the primary type, unless that name is a prefix of
      `EIP712Domain` (the empty name included), where it stops. */
  function TypesValues(h: Hash, types: TypesDoc, primaryType: Doc, vals: Doc, pass: Pass, resp: Signature)
    : (r: Result<Signature>)
    ensures pass == DomainPass && r.Ok? ==>
      r.value == resp.(domainSeparatorHash := r.value.domainSeparatorHash,
                       hasDomainSeparatorHash := true, hasMsgHash := false)
      && Encode(h, types, vals, DomainType) == Ok(r.value.domainSeparatorHash)
    ensures pass == MessagePass && r.Ok? ==>
      resp.hasDomainSeparatorHash && PrimaryTypeName(primaryType).Some?
      && var name := PrimaryTypeName(primaryType).value;
         var m := Encode(h, types, vals, name);
         !StrnEq(name, DomainType, |name|) && (m.Ok? || m == Fail(NullMsgHash))
         && r.value == resp.(messageHash := if m.Ok? then m.value else resp.messageHash,
                             hasMessageHash := true, hasMsgHash := true)
    ensures pass == MessagePass && !resp.hasDomainSeparatorHash ==> r == Fail(MsgNoDs)
    ensures Sized(resp) && r.Ok? ==> Sized(r.value)
  {
    match pass
    case DomainPass =>
      var ds :- Encode(h, types, vals, DomainType);
      Ok(resp.(domainSeparatorHash := ds, hasDomainSeparatorHash := true, hasMsgHash := false))
    case MessagePass =>
      if !resp.hasDomainSeparatorHash then Fail(MsgNoDs)
      else
        match Property(primaryType, "primaryType")
        case None => Fail(JsonPtypeNameErr)
        case Some(pv) =>
          var name :- GetValue(pv);
          if name.None? then Fail(JsonPtypeValErr)
          else if StrnEq(name.value, DomainType, |name.value|) then Fail(NullMsgHash)
          else
            match Encode(h, types, vals, name.value)
            case Ok(mh) =>
              Ok(resp.(messageHash := mh, hasMessageHash := true, hasMsgHash := true))
            case Fail(e) =>
              if e == NullMsgHash then Ok(resp.(hasMessageHash := true, hasMsgHash := true))
              else Fail(e)
  }

  /** A pass whose behaviour is undefined poisons the whole request; any other
      early stop leaves the response unchanged. */
  function RunPass(h: Hash, types: TypesDoc, primaryType: Doc, vals: Doc, pass: Pass, resp: Signature)
    : (r: Result<Signature>)
    ensures r.Fail? ==> r.error == Undefined
    ensures Sized(resp) && r.Ok? ==> Sized(r.value)
  {
    match TypesValues(h, types, primaryType, vals, pass, resp)
    case Ok(next) => Ok(next)
    case Fail(e) => if e == Undefined then Fail(Undefined) else Ok(resp)
  }

  /** `eip712_typed_data_hash_v4` (lines 1100-1154): the domain pass on the
      domain document, the message pass on the message document, then
      `ethereum_typed_hash` with a message hash that is always included; it
      is 32 zero bytes when the message is empty.  None is `false`. */
  function TypedDataHashV4(h: Hash, primaryType: Doc, types: TypesDoc, domain: Doc, message: Doc)
    : (r: Result<Option<seq<byte>>>)
    ensures r.Ok? && r.value.Some? ==> |r.value.value| == WordSize
    ensures r.Ok? && r.value.Some? ==>
      Encode(h, types, domain, DomainType).Ok? && PrimaryTypeName(primaryType).Some?
      && var name := PrimaryTypeName(primaryType).value;
         var m := Encode(h, types, message, name);
         !StrnEq(name, DomainType, |name|) && (m.Ok? || m == Fail(NullMsgHash))
         && r.value.value == TypedHash(h, Encode(h, types, domain, DomainType).value,
                                       if m.Ok? then m.value else Zeros(WordSize), true)
  {
    var afterDomain :- RunPass(h, types, primaryType, domain, DomainPass, EmptySignature);
    if !afterDomain.hasDomainSeparatorHash then Ok(None)
    else
      var afterMessage :- RunPass(h, types, primaryType, message, MessagePass, afterDomain);
      if !afterMessage.hasMsgHash then Ok(None)
      else
        Ok(Some(TypedHash(h, afterMessage.domainSeparatorHash, afterMessage.messageHash, true)))
  }
}

=== FILE: typed_data_properties.dfy ===
/** The digest `eip712_typed_data_hash_v4` returns, related to the formula
    of EIP-712: `keccak256(0x19 0x01 || hashStruct(domain) || hashStruct(message))`,
    where `hashStruct` of a top-level document is the same word a struct
    value gets when it is nested as a field.  Also: when the digest is
    refused, and how an empty message is hashed. */
module TypedDataProperties {
  import opened Uint8
  import opened Errors
  import opened CString
  import opened Keccak
  import opened TypeEncoder
  import opened ValueEncoder
  import opened TypedData

  /** The digest of EIP-712 from the two struct hashes. */
  function Eip712Digest(h: Hash, domainSeparator: seq<byte>, messageHash: seq<byte>): seq<byte>
  {
    h([0x19, 0x01] + domainSeparator + messageHash)
  }

  // ------------------------------------------------------------ encode

  lemma DomainNameIsDomain()
    ensures IsDomainType(DomainType)
  {
  }

  /** The message of a non-domain struct `t` hashes like a field of type
      `t` holding the same value, unless the message is empty. */
  lemma MessageIsStructWord(h: Hash, schema: Schema, vals: Doc, t: string, v: Val)
    requires !IsDomainType(t) && !EndsWith(t, ']')
    requires Property(vals, "message") == Some(v)
    requires v != Obj([]) && v != Arr([])
    ensures Encode(h, TypesDoc(Some(schema)), vals, t) == StructWord(h, schema, t, v)
  {
    StrnEqWhole(t, DomainType, |DomainType| + 1);
  }

  /** The domain separator is the word a field of type `EIP712Domain` holding
      the `domain` member would get; an empty domain is not special. */
  lemma DomainIsStructWord(h: Hash, schema: Schema, vals: Doc, v: Val)
    requires Property(vals, "domain") == Some(v)
    ensures Encode(h, TypesDoc(Some(schema)), vals, DomainType) == StructWord(h, schema, DomainType, v)
  {
    DomainNameIsDomain();
    assert !EndsWith(DomainType, ']');
  }

  /** For a declared non-domain type with a message, `encode` ends with
      NULL_MSG_HASH exactly when the message is an empty object or array. */
  lemma EmptyMessageIff(h: Hash, schema: Schema, vals: Doc, t: string, v: Val)
    requires !IsDomainType(t)
    requires TypeString(schema, t).Ok?
    requires Property(vals, "message") == Some(v)
    ensures Encode(h, TypesDoc(Some(schema)), vals, t) == Fail(NullMsgHash) <==> v == Obj([]) || v == Arr([])
  {
    StrnEqWhole(t, DomainType, |DomainType| + 1);
    assert !IsParseValsError(NullMsgHash);
  }

  /** A missing `types` member, and a missing `domain` or `message` member,
      are reported as such. */
  lemma MissingMembers(h: Hash, schema: Schema, vals: Doc, t: string)
    requires TypeString(schema, t).Ok?
    requires forall i :: 0 <= i < |vals| ==> vals[i].0 != "domain" && vals[i].0 != "message"
    ensures Encode(h, TypesDoc(Some(schema)), vals, t)
      == Fail(if IsDomainType(t) then JsonDPropErr else JsonMPropErr)
  {
  }

  // ------------------------------------------------------------- digest

  /** When both passes encode, the digest is the EIP-712 formula. */
  lemma DigestIsEip712(h: Hash, primaryType: Doc, types: TypesDoc, domain: Doc, message: Doc,
                       name: string, ds: seq<byte>, mh: seq<byte>)
    requires Encode(h, types, domain, DomainType) == Ok(ds)
    requires Property(primaryType, "primaryType") == Some(Text(name))
    requires !StrnEq(name, DomainType, |name|)
    requires Encode(h, types, message, name) == Ok(mh)
    ensures TypedDataHashV4(h, primaryType, types, domain, message) == Ok(Some(Eip712Digest(h, ds, mh)))
  {
    var afterDomain := EmptySignature.(domainSeparatorHash := ds, hasDomainSeparatorHash := true, hasMsgHash := false);
    assert RunPass(h, types, primaryType, domain, DomainPass, EmptySignature) == Ok(afterDomain);
    var afterMessage := afterDomain.(messageHash := mh, hasMessageHash := true, hasMsgHash := true);
    assert RunPass(h, types, primaryType, message, MessagePass, afterDomain) == Ok(afterMessage);
  }

  /** An empty message still yields a digest, with 32 zero bytes in place
      of the message hash. */
  lemma EmptyMessageDigest(h: Hash, primaryType: Doc, types: TypesDoc, domain: Doc, message: Doc,
                           name: string, ds: seq<byte>)
    requires Encode(h, types, domain, DomainType) == Ok(ds)
    requires Property(primaryType, "primaryType") == Some(Text(name))
    requires !StrnEq(name, DomainType, |name|)
    requires Encode(h, types, message, name) == Fail(NullMsgHash)
    ensures TypedDataHashV4(h, primaryType, types, domain, message)
      == Ok(Some(Eip712Digest(h, ds, Zeros(WordSize))))
  {
    var afterDomain := EmptySignature.(domainSeparatorHash := ds, hasDomainSeparatorHash := true, hasMsgHash := false);
    assert RunPass(h, types, primaryType, domain, DomainPass, EmptySignature) == Ok(afterDomain);
    var afterMessage := afterDomain.(hasMessageHash := true, hasMsgHash := true);
    assert RunPass(h, types, primaryType, message, MessagePass, afterDomain) == Ok(afterMessage);
  }

  /** A domain that does not encode refuses the digest, unless its failure is
      undefined behaviour. */
  lemma DomainFailureRefuses(h: Hash, primaryType: Doc, types: TypesDoc, domain: Doc, message: Doc,
                             e: Status)
    requires Encode(h, types, domain, DomainType) == Fail(e)
    ensures TypedDataHashV4(h, primaryType, types, domain, message)
      == (if e == Undefined then Fail(Undefined) else Ok(None))
  {
  }

  /** A primary type that is a prefix of `EIP712Domain`, the empty name
      included, refuses the digest. */
  lemma DomainPrefixRefuses(h: Hash, primaryType: Doc, types: TypesDoc, domain: Doc, message: Doc,
                            name: string, ds: seq<byte>)
    requires Encode(h, types, domain, DomainType) == Ok(ds)
    requires Property(primaryType, "primaryType") == Some(Text(name))
    requires HasPrefix(DomainType, name)
    ensures TypedDataHashV4(h, primaryType, types, domain, message) == Ok(None)
  {
    StrnEqIsPrefix(DomainType, name);
    var afterDomain := EmptySignature.(domainSeparatorHash := ds, hasDomainSeparatorHash := true, hasMsgHash := false);
    assert RunPass(h, types, primaryType, domain, DomainPass, EmptySignature) == Ok(afterDomain);
    assert RunPass(h, types, primaryType, message, MessagePass, afterDomain) == Ok(afterDomain);
  }

  /** A message that fails to encode for any reason but emptiness or
      undefined behaviour refuses the digest. */
  lemma MessageFailureRefuses(h: Hash, primaryType: Doc, types: TypesDoc, domain: Doc, message: Doc,
                              name: string, ds: seq<byte>, e: Status)
    requires Encode(h, types, domain, DomainType) == Ok(ds)
    requires Property(primaryType, "primaryType") == Some(Text(name))
    requires !StrnEq(name, DomainType, |name|)
    requires Encode(h, types, message, name) == Fail(e) && e != NullMsgHash && e != Undefined
    ensures TypedDataHashV4(h, primaryType, types, domain, message) == Ok(None)
  {
    var afterDomain := EmptySignature.(domainSeparatorHash := ds, hasDomainSeparatorHash := true, hasMsgHash := false);
    assert RunPass(h, types, primaryType, domain, DomainPass, EmptySignature) == Ok(afterDomain);
    assert RunPass(h, types, primaryType, message, MessagePass, afterDomain) == Ok(afterDomain);
  }
}

=== FILE: uint8.dfy ===
/** The C `uint8_t`: the unit of every buffer the hasher absorbs and of
    every digest it produces. */
module Uint8 {
  newtype byte = x: int | 0 <= x < 256
}

=== FILE: value_encoder.dfy ===
/** The value half of the EIP-712 hasher: `parseVals`
    (components/ethereum/eip712/eip712.c:510-908), which walks a struct's
    fields in schema order, finds each field's value by name and absorbs its
    32-byte encoding into the caller's hash context.  The context is modelled
    as the bytes absorbed, so `EncodeData` returns the concatenated words:
    `encodeData` of EIP-712 without the leading type hash. */
module ValueEncoder {
  import opened Uint8
  import opened Errors
  import opened CString
  import opened Keccak
  import opened TypeEncoder
  import opened WordEncoder

  /** A parsed JSON value.  Every primitive (string, number, `true`, `null`)
      is a text node; objects keep their members in document order. */
  datatype Val =
    | Text(s: string)
    | Obj(members: seq<(string, Val)>)
    | Arr(items: seq<Val>)

  /** `json_getValue`: the text of a text node.  An empty object or array
      reads as NULL (its child pointer shares storage with the text
      pointer); a non-empty one yields its child pointer reinterpreted as
      text, which the parsed value does not determine. */
  function GetValue(v: Val): (r: Result<Option<string>>)
    ensures r.Ok? && r.value.Some? <==> v.Text?
    ensures r.Ok? && r.value.None? <==> v == Obj([]) || v == Arr([])
    ensures v.Text? ==> r == Ok(Some(v.s))
  {
    match v
    case Text(s) => Ok(Some(s))
    case Obj(ms) => if ms == [] then Ok(None) else Fail(Undefined)
    case Arr(items) => if items == [] then Ok(None) else Fail(Undefined)
  }

  /** A value text the encoders dereference: NULL is undefined there. */
  function GetText(v: Val): (r: Result<string>)
    ensures r.Ok? <==> v.Text?
    ensures r.Ok? ==> r.value == v.s
  {
    var s :- GetValue(v);
    if s.None? then Fail(Undefined) else Ok(s.value)
  }

  /** The nodes `json_getChild` and `json_getSibling` walk below `v`: the
      member values of an object, the items of an array.  Below a text node
      the child pointer is its text reinterpreted as a node. */
  function Children(v: Val): (r: Result<seq<Val>>)
    ensures r.Ok? <==> !v.Text?
    ensures r.Ok? ==> forall i :: 0 <= i < |r.value| ==> r.value[i] < v
    ensures v.Arr? ==> r == Ok(v.items)
    ensures v.Obj? ==> r.Ok? && |r.value| == |v.members|
  {
    match v
    case Text(_) => Fail(Undefined)
    case Obj(ms) =>
      Ok(seq(|ms|, i requires 0 <= i < |ms| => assert ms[i] < v; ms[i].1))
    case Arr(items) => Ok(items)
  }

  /** The member walk of lines 559-571: the value of the first member of
      `container` called `name`, or None when there is none.  Array items
      have no name, and `strcmp` on the NULL name of a first item is
      undefined. */
  function FindMember(container: Val, name: string): (r: Result<Option<Val>>)
    ensures r.Ok? && r.value.Some? ==> r.value.value < container
    ensures container.Obj? ==> r.Ok?
    ensures container.Obj? && r.value.Some? ==> (name, r.value.value) in container.members
    ensures container.Obj? ==>
      forall k :: 0 <= k < |container.members| && container.members[k].0 == name
                  && (forall j :: 0 <= j < k ==> container.members[j].0 != name) ==>
        r == Ok(Some(container.members[k].1))
    ensures container.Obj? ==>
      (r.value.None? <==> forall i :: 0 <= i < |container.members| ==> container.members[i].0 != name)
    ensures r.Ok? <==> container.Obj? || container == Arr([])
  {
    match container
    case Text(_) => Fail(Undefined)
    case Arr(items) => if items == [] then Ok(None) else Fail(Undefined)
    case Obj(ms) =>
      assert forall i :: 0 <= i < |ms| ==> ms[i].1 < ms[i] < container;
      Ok(FirstNamed(container, ms, name))
  }

  /** The value of the first of `ms` called `name`. */
  function FirstNamed(container: Val, ms: seq<(string, Val)>, name: string): (r: Option<Val>)
    requires forall i :: 0 <= i < |ms| ==> ms[i].1 < container
    ensures r.Some? ==> r.value < container && (name, r.value) in ms
    ensures r.None? <==> forall i :: 0 <= i < |ms| ==> ms[i].0 != name
    ensures forall k :: 0 <= k < |ms| && ms[k].0 == name && (forall j :: 0 <= j < k ==> ms[j].0 != name) ==>
      r == Some(ms[k].1)
  {
    if ms == [] then None
    else if ms[0].0 == name then
      assert ms[0] == (name, ms[0].1);
      Some(ms[0].1)
    else
      var r := FirstNamed(container, ms[1..], name);
      assert r.Some? ==> (name, r.value) in ms[1..];
      r
  }

  // ------------------------------------------------------------- dispatch

  /** The branch of `parseVals` a field type takes. */
  datatype Kind = AddressKind | StringKind | IntKind | BytesKind | BoolKind | StructKind

  /** The branch tests of lines 591-798, in order.  The comparisons are
      shorter than the names: `address` and `string` lose their last letter,
      `uint` and `int` too, and the bool test asks whether the TYPE is a
      prefix of `bool`, so the empty type and `bool[]` take unexpected
      branches. */
  function Dispatch(t: string): (k: Kind)
    ensures k == AddressKind <==> HasPrefix(t, "addres")
    ensures k == StringKind <==> !HasPrefix(t, "addres") && HasPrefix(t, "strin")
    ensures k == IntKind <==>
      !HasPrefix(t, "addres") && !HasPrefix(t, "strin") && (HasPrefix(t, "uin") || HasPrefix(t, "in"))
    ensures k == BytesKind <==>
      !HasPrefix(t, "addres") && !HasPrefix(t, "strin") && !HasPrefix(t, "uin") && !HasPrefix(t, "in")
      && HasPrefix(t, "bytes")
    ensures k == BoolKind <==>
      !HasPrefix(t, "addres") && !HasPrefix(t, "strin") && !HasPrefix(t, "uin") && !HasPrefix(t, "in")
      && !HasPrefix(t, "bytes") && HasPrefix("bool", t)
  {
    StrnEqIsPrefix(t, "addres");
    StrnEqIsPrefix(t, "strin");
    StrnEqIsPrefix(t, "uin");
    StrnEqIsPrefix(t, "in");
    StrnEqIsPrefix(t, "bytes");
    StrnEqIsPrefix("bool", t);
    assert StrnEq("address", t, 6) <==> StrnEq("addres", t, 6);
    assert StrnEq("string", t, 5) <==> StrnEq("strin", t, 5);
    assert StrnEq("uint", t, 3) <==> StrnEq("uin", t, 3);
    assert StrnEq("int", t, 2) <==> StrnEq("in", t, 2);
    if StrnEq("address", t, 6) then AddressKind
    else if StrnEq("string", t, 5) then StringKind
    else if StrnEq("uint", t, 3) || StrnEq("int", t, 2) then IntKind
    else if StrnEq("bytes", t, 5) then BytesKind
    else if StrnEq("bool", t, |t|) then BoolKind
    else StructKind
  }

  /** No non-empty prefix of `bool` ends in `]`. */
  lemma BoolPrefixIsNotArray(t: string)
    ensures HasPrefix("bool", t) && t != "" ==> !EndsWith(t, ']')
  {
    if HasPrefix("bool", t) && t != "" {
      assert t[|t| - 1] == "bool"[|t| - 1];
    }
  }

  // ------------------------------------------------------------ encoding

  /** The statuses `parseVals` can end with.  BOOL_ARRAY_ERROR is not among
      them: no type that reaches the bool branch ends in `]`. */
  predicate IsParseValsError(e: Status)
  {
    IsParseTypeError(e) ||
    e in {JsonTypeWNoVal, AddrStringNull, AddrStringVflow, BytesnStringError, BytesnSizeError,
          IntArrayError, BytesnArrayError, UdefArrayNameErr, Undefined}
  }

  /** `parseVals` (lines 510-908): the words of `fields`, in order, each
      found by name among the nodes below `container`. */
  function EncodeData(h: Hash, schema: Schema, fields: seq<Field>, container: Val)
    : (r: Result<seq<byte>>)
    ensures r.Ok? ==> |r.value| == WordSize * |fields|
    ensures r.Fail? ==> IsParseValsError(r.error)
    ensures fields == [] ==> r == Ok([])
    decreases container, 0, |fields|
  {
    if fields == [] then Ok([])
    else
      var word :- FieldWord(h, schema, fields[0], container);
      var rest :- EncodeData(h, schema, fields[1..], container);
      Ok(word + rest)
  }

  /** The word field `f` contributes when the values are below `container`
      (lines 559-588 and the dispatch after them): its value is looked up by
      name, and a missing one is JSON_TYPE_WNOVAL. */
  function FieldWord(h: Hash, schema: Schema, f: Field, container: Val): (r: Result<seq<byte>>)
    ensures r.Ok? ==> |r.value| == WordSize
    ensures r.Fail? ==> IsParseValsError(r.error)
    decreases container, 0, 0
  {
    var found :- FindMember(container, f.name);
    if found.None? then Fail(JsonTypeWNoVal)
    else EncodeField(h, schema, f.typ, found.value)
  }

  /** The word of one field of type `t` whose value is `v` (lines 584-898). */
  function EncodeField(h: Hash, schema: Schema, t: string, v: Val): (r: Result<seq<byte>>)
    ensures r.Ok? ==> |r.value| == WordSize
    ensures r.Fail? ==> IsParseValsError(r.error)
    decreases v, 3, 0
  {
    match Dispatch(t)
    case AddressKind => AddressField(h, t, v)
    case StringKind => StringField(h, t, v)
    case IntKind => IntField(t, v)
    case BytesKind => BytesField(h, t, v)
    case BoolKind =>
      BoolPrefixIsNotArray(t);
      BoolField(t, v)
    case StructKind => StructWord(h, schema, t, v)
  }

  /** The address branch (lines 591-636): one address, or the hash of the
      words of an array of addresses. */
  function AddressField(h: Hash, t: string, v: Val): (r: Result<seq<byte>>)
    ensures r.Ok? ==> |r.value| == WordSize
    ensures r.Fail? ==> r.error in {AddrStringNull, AddrStringVflow, Undefined}
    ensures !EndsWith(t, ']') && v.Text? ==> r == EncAddress(Some(v.s))
    ensures !EndsWith(t, ']') && (v == Obj([]) || v == Arr([])) ==> r == Fail(AddrStringNull)
    ensures EndsWith(t, ']') && v.Arr? ==> r == (match AddressWords(v.items)
                                                   case Ok(ws) => Ok(h(ws))
                                                   case Fail(e) => Fail(e))
  {
    if EndsWith(t, ']') then
      var items :- Children(v);
      var words :- AddressWords(items);
      Ok(h(words))
    else
      AddressItem(v)
  }

  /** One address (lines 602-612 and 623-632): `encAddress` of the value's
      text, where an empty object or array passes NULL. */
  function AddressItem(v: Val): (r: Result<seq<byte>>)
    ensures r.Ok? ==> |r.value| == WordSize
    ensures r.Fail? ==> r.error in {AddrStringNull, AddrStringVflow, Undefined}
    ensures v.Text? ==> r == EncAddress(Some(v.s))
    ensures v == Obj([]) || v == Arr([]) ==> r == Fail(AddrStringNull)
    ensures r.Ok? ==> v.Text?
  {
    var s :- GetValue(v);
    EncAddress(s)
  }

  /** The string branch (lines 637-682): the hash of one string, or the hash
      of the string hashes of an array. */
  function StringField(h: Hash, t: string, v: Val): (r: Result<seq<byte>>)
    ensures r.Ok? ==> |r.value| == WordSize
    ensures r.Fail? ==> r.error == Undefined
    ensures !EndsWith(t, ']') ==> (r.Ok? <==> v.Text?)
    ensures !EndsWith(t, ']') && v.Text? ==> r == Ok(h(CString.Bytes(v.s)))
    ensures EndsWith(t, ']') && v.Arr? ==>
      (r.Ok? <==> forall i :: 0 <= i < |v.items| ==> v.items[i].Text?)
  {
    if EndsWith(t, ']') then
      var items :- Children(v);
      var words :- StringWords(h, items);
      Ok(h(words))
    else
      StringItem(h, v)
  }

  /** One string (lines 657 and 675): the hash of the value's text, which
      must not be NULL. */
  function StringItem(h: Hash, v: Val): (r: Result<seq<byte>>)
    ensures r.Ok? <==> v.Text?
    ensures r.Ok? ==> r.value == h(CString.Bytes(v.s))
    ensures r.Fail? ==> r.error == Undefined
  {
    var s :- GetText(v);
    Ok(EncString(h, s))
  }

  /** The integer branch (lines 683-735): arrays are refused. */
  function IntField(t: string, v: Val): (r: Result<seq<byte>>)
    ensures r.Ok? ==> |r.value| == WordSize
    ensures EndsWith(t, ']') ==> r == Fail(IntArrayError)
    ensures !EndsWith(t, ']') ==> (r.Ok? <==> v.Text?)
    ensures r.Ok? ==> r.value == IntWord(t, v.s)
    ensures r.Fail? ==> r.error in {IntArrayError, Undefined}
  {
    if EndsWith(t, ']') then Fail(IntArrayError)
    else
      var s :- GetText(v);
      Ok(IntWord(t, s))
  }

  /** The bytes branch (lines 736-770): `bytes` hashes its value, any other
      type of the family is a left-aligned `bytesN`; arrays are refused. */
  function BytesField(h: Hash, t: string, v: Val): (r: Result<seq<byte>>)
    ensures r.Ok? ==> |r.value| == WordSize
    ensures EndsWith(t, ']') ==> r == Fail(BytesnArrayError)
    ensures !EndsWith(t, ']') && !v.Text? ==> r == Fail(Undefined)
    ensures !EndsWith(t, ']') && v.Text? && t == "bytes" ==> r == EncodeBytes(h, v.s)
    ensures !EndsWith(t, ']') && v.Text? && t != "bytes" ==> r == EncodeBytesN(t, v.s)
    ensures r.Fail? ==> r.error in {BytesnArrayError, BytesnStringError, BytesnSizeError, Undefined}
  {
    if EndsWith(t, ']') then Fail(BytesnArrayError)
    else
      var s :- GetText(v);
      if t == "bytes" then EncodeBytes(h, s) else EncodeBytesN(t, s)
  }

  /** The bool branch (lines 771-797).  For an empty type its array test
      reads the byte before the string, which tiny-json's in-place parse
      leaves as the opening quote, so the type is not an array. */
  function BoolField(t: string, v: Val): (r: Result<seq<byte>>)
    ensures r.Ok? ==> |r.value| == WordSize
    ensures r.Ok? <==> !EndsWith(t, ']') && v.Text?
    ensures r.Ok? ==> r.value == BoolWord(v.s)
    ensures r == Fail(BoolArrayError) <==> EndsWith(t, ']')
    ensures r.Fail? ==> r.error in {BoolArrayError, Undefined}
  {
    if EndsWith(t, ']') then Fail(BoolArrayError)
    else
      var s :- GetText(v);
      Ok(BoolWord(s))
  }

  /** The user-defined branch (lines 798-898): a struct value hashes as
      `keccak(typeHash || encodeData)`; an array of structs as the hash of
      its elements' struct hashes, where only the name before the first `[`
      is read from an array type that fits the 32-byte buffer. */
  function StructWord(h: Hash, schema: Schema, t: string, v: Val): (r: Result<seq<byte>>)
    ensures r.Ok? ==> |r.value| == WordSize
    ensures r.Fail? ==> IsParseValsError(r.error)
    ensures EndsWith(t, ']') && |t| > MaxTypeString - 1 ==> r == Fail(UdefArrayNameErr)
    ensures EndsWith(t, ']') && |t| <= MaxTypeString - 1 ==> r == StructArray(h, schema, StrtokBuffer(t, '['), v)
    ensures !EndsWith(t, ']') && TypeString(schema, t).Fail? ==> r == Fail(TypeString(schema, t).error)
    ensures !EndsWith(t, ']') && TypeString(schema, t).Ok? ==>
      var data := EncodeData(h, schema, LookupType(schema, t).value.fields, v);
      r == (if data.Ok? then Ok(h(h(CString.Bytes(TypeString(schema, t).value)) + data.value))
            else Fail(data.error))
    decreases v, 2, 0
  {
    if EndsWith(t, ']') then
      if |t| > MaxTypeString - 1 then Fail(UdefArrayNameErr)
      else StructArray(h, schema, StrtokBuffer(t, '['), v)
    else
      var typeString :- TypeString(schema, t);
      var typeHash := h(CString.Bytes(typeString));
      var def := LookupType(schema, t).value;
      var data :- EncodeData(h, schema, def.fields, v);
      Ok(h(typeHash + data))
  }

  /** An array of structs (lines 810-876) whose type reads `base` before its
      first `[`: the hash of the empty string for an empty array, and
      otherwise the hash of the element hashes, each computed with the type
      hash of `base` and the fields of the element type. */
  function StructArray(h: Hash, schema: Schema, base: string, v: Val): (r: Result<seq<byte>>)
    ensures r.Ok? ==> |r.value| == WordSize
    ensures r.Fail? ==> IsParseValsError(r.error)
    decreases v, 1, 0
  {
    var typeString :- TypeString(schema, base);
    var typeHash := h(CString.Bytes(typeString));
    var items :- Children(v);
    if items == [] then Ok(h([]))
    else
      var def :- ElementType(schema, base);
      var hashes :- StructHashes(h, schema, def.fields, typeHash, items, v);
      Ok(h(hashes))
  }

  /** The struct each array element is encoded as (line 864): the name up to
      the first `]` of the array type with its `[` suffix cut.  A missing
      name or struct is passed on as NULL and dereferenced. */
  function ElementType(schema: Schema, base: string): (r: Result<TypeDef>)
    ensures r.Ok? ==> StrtokToken(base, ']').Some? && r.value.name == StrtokToken(base, ']').value
    ensures ']' !in base && base != "" && LookupType(schema, base).Some? ==>
      r == Ok(LookupType(schema, base).value)
  {
    match StrtokToken(base, ']')
    case None => Fail(Undefined)
    case Some(name) =>
      match LookupType(schema, name)
      case None => Fail(Undefined)
      case Some(d) => Ok(d)
  }

  /** The element hashes of an array of structs, concatenated: each is
      `keccak(typeHash || encodeData(element))`. */
  function StructHashes(h: Hash, schema: Schema, fields: seq<Field>, typeHash: seq<byte>,
                        items: seq<Val>, bound: Val): (r: Result<seq<byte>>)
    requires forall i :: 0 <= i < |items| ==> items[i] < bound
    ensures r.Ok? ==> |r.value| == WordSize * |items|
    ensures r.Fail? ==> IsParseValsError(r.error)
    decreases bound, 0, |items|
  {
    if items == [] then Ok([])
    else
      var data :- EncodeData(h, schema, fields, items[0]);
      var rest :- StructHashes(h, schema, fields, typeHash, items[1..], bound);
      Ok(h(typeHash + data) + rest)
  }

  /** The words of an array of addresses (lines 596-618), concatenated. */
  function AddressWords(items: seq<Val>): (r: Result<seq<byte>>)
    ensures r.Ok? ==> |r.value| == WordSize * |items|
    ensures r.Fail? ==> r.error in {AddrStringNull, AddrStringVflow, Undefined}
  {
    if items == [] then Ok([])
    else
      var word :- AddressItem(items[0]);
      var rest :- AddressWords(items[1..]);
      Ok(word + rest)
  }

  /** The words of an array of strings (lines 642-664), concatenated. */
  function StringWords(h: Hash, items: seq<Val>): (r: Result<seq<byte>>)
    ensures r.Ok? <==> forall i :: 0 <= i < |items| ==> items[i].Text?
    ensures r.Ok? ==> |r.value| == WordSize * |items|
    ensures r.Fail? ==> r.error == Undefined
  {
    if items == [] then Ok([])
    else
      var word :- StringItem(h, items[0]);
      var rest :- StringWords(h, items[1..]);
      Ok(word + rest)
  }
}

=== FILE: value_properties.dfy ===
/** What `parseVals` computes, stated field by field: the encoded data is
    the concatenation of one word per field, it fails exactly when some
    field fails (with the first failure's status), it depends on the
    container only through the members the fields name, and an array of
    structs hashes the words its elements would have as single values. */
module ValueProperties {
  import opened Uint8
  import opened Errors
  import opened CString
  import opened Keccak
  import opened TypeEncoder
  import opened WordEncoder
  import opened ValueEncoder

  // ------------------------------------------------ results concatenated

  /** Results concatenated in order, stopping at the first failure: the
      shape of the loop over the fields in `parseVals`. */
  function Concat(rs: seq<Result<seq<byte>>>): Result<seq<byte>>
  {
    if rs == [] then Ok([])
    else
      var word :- rs[0];
      var rest :- Concat(rs[1..]);
      Ok(word + rest)
  }

  /** Every result in `rs` that is a word is 32 bytes long. */
  predicate AllWords(rs: seq<Result<seq<byte>>>)
  {
    forall j :: 0 <= j < |rs| && rs[j].Ok? ==> |rs[j].value| == WordSize
  }

  /** A concatenation succeeds exactly when every result does. */
  lemma {:induction false} ConcatOkIff(rs: seq<Result<seq<byte>>>)
    ensures Concat(rs).Ok? <==> forall i :: 0 <= i < |rs| ==> rs[i].Ok?
  {
    if rs != [] {
      ConcatOkIff(rs[1..]);
      assert forall i :: 1 <= i < |rs| ==> rs[i] == rs[1..][i - 1];
    }
  }

  /** A concatenation of words is 32 bytes per result. */
  lemma {:induction false} ConcatLength(rs: seq<Result<seq<byte>>>)
    requires AllWords(rs) && Concat(rs).Ok?
    ensures |Concat(rs).value| == WordSize * |rs|
  {
    if rs != [] {
      ConcatLength(rs[1..]);
    }
  }

  lemma WordOfAppend(word: seq<byte>, rest: seq<byte>, i: nat)
    requires |word| == WordSize && 0 < i && WordSize * i <= |rest|
    ensures (word + rest)[WordSize * i..WordSize * i + WordSize]
      == rest[WordSize * (i - 1)..WordSize * (i - 1) + WordSize]
  {
  }

  /** Word `i` of a concatenation is the `i`-th result. */
  lemma {:induction false} ConcatWord(rs: seq<Result<seq<byte>>>, i: nat)
    requires AllWords(rs) && Concat(rs).Ok? && i < |rs|
    ensures rs[i].Ok? && |Concat(rs).value| == WordSize * |rs|
    ensures Concat(rs).value[WordSize * i..WordSize * i + WordSize] == rs[i].value
    decreases i
  {
    ConcatLength(rs);
    if i > 0 {
      ConcatWord(rs[1..], i - 1);
      WordOfAppend(rs[0].value, Concat(rs[1..]).value, i);
    }
  }

  /** A concatenation fails with the status of its first failing result. */
  lemma {:induction false} ConcatFirstFailure(rs: seq<Result<seq<byte>>>, i: nat)
    requires i < |rs| && rs[i].Fail?
    requires forall j :: 0 <= j < i ==> rs[j].Ok?
    ensures Concat(rs) == Fail(rs[i].error)
    decreases i
  {
    if i > 0 {
      assert rs[0].Ok?;
      assert forall j :: 0 <= j < i - 1 ==> rs[1..][j] == rs[j + 1];
      ConcatFirstFailure(rs[1..], i - 1);
    }
  }

  // ---------------------------------------------------------- per field

  /** The words of `fields`, one result per field, in schema order. */
  function FieldWords(h: Hash, schema: Schema, fields: seq<Field>, c: Val): (rs: seq<Result<seq<byte>>>)
    ensures |rs| == |fields| && AllWords(rs)
    ensures forall i :: 0 <= i < |fields| ==> rs[i] == FieldWord(h, schema, fields[i], c)
  {
    seq(|fields|, i requires 0 <= i < |fields| => FieldWord(h, schema, fields[i], c))
  }

  /** `parseVals` concatenates the fields' words. */
  lemma {:induction false} EncodeDataIsConcat(h: Hash, schema: Schema, fields: seq<Field>, c: Val)
    ensures EncodeData(h, schema, fields, c) == Concat(FieldWords(h, schema, fields, c))
  {
    if fields != [] {
      EncodeDataIsConcat(h, schema, fields[1..], c);
      assert FieldWords(h, schema, fields, c)[1..] == FieldWords(h, schema, fields[1..], c);
    }
  }

  /** The encoding succeeds exactly when every field's word does. */
  lemma EncodeDataOkIff(h: Hash, schema: Schema, fields: seq<Field>, c: Val)
    ensures EncodeData(h, schema, fields, c).Ok? <==>
      forall i :: 0 <= i < |fields| ==> FieldWord(h, schema, fields[i], c).Ok?
  {
    EncodeDataIsConcat(h, schema, fields, c);
    ConcatOkIff(FieldWords(h, schema, fields, c));
  }

  lemma EncodeDataWord(h: Hash, schema: Schema, fields: seq<Field>, c: Val, i: nat)
    requires EncodeData(h, schema, fields, c).Ok? && i < |fields|
    ensures FieldWord(h, schema, fields[i], c).Ok?
    ensures EncodeData(h, schema, fields, c).value[WordSize * i..WordSize * i + WordSize]
      == FieldWord(h, schema, fields[i], c).value
  {
    EncodeDataIsConcat(h, schema, fields, c);
    ConcatWord(FieldWords(h, schema, fields, c), i);
  }

  /** Word `i` of the encoding is field `i`'s word. */
  lemma EncodeDataWords(h: Hash, schema: Schema, fields: seq<Field>, c: Val)
    requires EncodeData(h, schema, fields, c).Ok?
    ensures forall i :: 0 <= i < |fields| ==>
      FieldWord(h, schema, fields[i], c).Ok? &&
      EncodeData(h, schema, fields, c).value[WordSize * i..WordSize * i + WordSize]
        == FieldWord(h, schema, fields[i], c).value
  {
    forall i | 0 <= i < |fields|
      ensures FieldWord(h, schema, fields[i], c).Ok?
      ensures EncodeData(h, schema, fields, c).value[WordSize * i..WordSize * i + WordSize]
        == FieldWord(h, schema, fields[i], c).value
    {
      EncodeDataWord(h, schema, fields, c, i);
    }
  }

  /** The encoding stops at the first field that fails, with its status. */
  lemma FirstFailure(h: Hash, schema: Schema, fields: seq<Field>, c: Val, i: nat)
    requires i < |fields|
    requires forall j :: 0 <= j < i ==> FieldWord(h, schema, fields[j], c).Ok?
    requires FieldWord(h, schema, fields[i], c).Fail?
    ensures EncodeData(h, schema, fields, c) == Fail(FieldWord(h, schema, fields[i], c).error)
  {
    EncodeDataIsConcat(h, schema, fields, c);
    ConcatFirstFailure(FieldWords(h, schema, fields, c), i);
  }

  /** A field with no member of its name in an object ends the encoding
      with JSON_TYPE_WNOVAL once the fields before it have encoded. */
  lemma MissingFieldFails(h: Hash, schema: Schema, fields: seq<Field>, ms: seq<(string, Val)>, i: nat)
    requires i < |fields|
    requires forall j :: 0 <= j < i ==> FieldWord(h, schema, fields[j], Obj(ms)).Ok?
    requires forall k :: 0 <= k < |ms| ==> ms[k].0 != fields[i].name
    ensures EncodeData(h, schema, fields, Obj(ms)) == Fail(JsonTypeWNoVal)
  {
    assert FindMember(Obj(ms), fields[i].name) == Ok(None);
    FirstFailure(h, schema, fields, Obj(ms), i);
  }

  // ------------------------------------------------ dependence on members

  /** The encoding reads the container only through the lookups of the
      field names. */
  lemma {:induction false} SameLookupsSameData(h: Hash, schema: Schema, fields: seq<Field>, c1: Val, c2: Val)
    requires forall i :: 0 <= i < |fields| ==> FindMember(c1, fields[i].name) == FindMember(c2, fields[i].name)
    ensures EncodeData(h, schema, fields, c1) == EncodeData(h, schema, fields, c2)
  {
    if fields != [] {
      assert FindMember(c1, fields[0].name) == FindMember(c2, fields[0].name);
      forall i | 0 <= i < |fields[1..]|
        ensures FindMember(c1, fields[1..][i].name) == FindMember(c2, fields[1..][i].name)
      {
        assert fields[1..][i] == fields[i + 1];
      }
      SameLookupsSameData(h, schema, fields[1..], c1, c2);
    }
  }

  /** No two members of an object share a name. */
  predicate DistinctNames(ms: seq<(string, Val)>)
  {
    forall i, j :: 0 <= i < j < |ms| ==> ms[i].0 != ms[j].0
  }

  lemma {:induction false} FirstNamedIsTheNamed(container: Val, ms: seq<(string, Val)>, name: string, v: Val)
    requires forall i :: 0 <= i < |ms| ==> ms[i].1 < container
    requires DistinctNames(ms) && (name, v) in ms
    ensures FirstNamed(container, ms, name) == Some(v)
  {
    if ms[0].0 != name {
      assert (name, v) in ms[1..];
      FirstNamedIsTheNamed(container, ms[1..], name, v);
    } else {
      var k :| 0 <= k < |ms| && ms[k] == (name, v);
      assert k == 0;
    }
  }

  /** In an object whose member names are distinct, the order of the
      members does not change any lookup. */
  lemma ReorderedLookup(ms1: seq<(string, Val)>, ms2: seq<(string, Val)>, name: string)
    requires DistinctNames(ms1) && DistinctNames(ms2) && multiset(ms1) == multiset(ms2)
    ensures FindMember(Obj(ms1), name) == FindMember(Obj(ms2), name)
  {
    var c1, c2 := Obj(ms1), Obj(ms2);
    assert forall i :: 0 <= i < |ms1| ==> ms1[i].1 < c1 by {
      forall i | 0 <= i < |ms1| ensures ms1[i].1 < c1 { assert ms1[i] in ms1; }
    }
    assert forall i :: 0 <= i < |ms2| ==> ms2[i].1 < c2 by {
      forall i | 0 <= i < |ms2| ensures ms2[i].1 < c2 { assert ms2[i] in ms2; }
    }
    var r1 := FindMember(c1, name);
    var r2 := FindMember(c2, name);
    if r1.value.Some? {
      assert (name, r1.value.value) in multiset(ms2);
      FirstNamedIsTheNamed(c2, ms2, name, r1.value.value);
    } else {
      forall k | 0 <= k < |ms2|
        ensures ms2[k].0 != name
      {
        assert ms2[k] in multiset(ms1);
        var j :| 0 <= j < |ms1| && ms1[j] == ms2[k];
      }
    }
  }

  /** Reordering the members of a value object (names distinct) leaves its
      encoding unchanged: fields are encoded in schema order, not document
      order. */
  lemma ReorderedData(h: Hash, schema: Schema, fields: seq<Field>,
                      ms1: seq<(string, Val)>, ms2: seq<(string, Val)>)
    requires DistinctNames(ms1) && DistinctNames(ms2) && multiset(ms1) == multiset(ms2)
    ensures EncodeData(h, schema, fields, Obj(ms1)) == EncodeData(h, schema, fields, Obj(ms2))
  {
    forall i | 0 <= i < |fields|
      ensures FindMember(Obj(ms1), fields[i].name) == FindMember(Obj(ms2), fields[i].name)
    {
      ReorderedLookup(ms1, ms2, fields[i].name);
    }
    SameLookupsSameData(h, schema, fields, Obj(ms1), Obj(ms2));
  }

  lemma {:induction false} FirstNamedAppend(container: Val, ms: seq<(string, Val)>,
                                            extra: seq<(string, Val)>, name: string)
    requires forall i :: 0 <= i < |ms + extra| ==> (ms + extra)[i].1 < container
    requires forall i :: 0 <= i < |ms| ==> ms[i].1 < container
    requires forall k :: 0 <= k < |extra| ==> extra[k].0 != name
    ensures FirstNamed(container, ms + extra, name) == FirstNamed(container, ms, name)
  {
    if ms == [] {
      assert ms + extra == extra;
    } else {
      assert (ms + extra)[1..] == ms[1..] + extra;
      if ms[0].0 != name {
        FirstNamedAppend(container, ms[1..], extra, name);
      }
    }
  }

  /** Members appended after the ones the schema names are never read. */
  lemma ExtraMembersIgnored(h: Hash, schema: Schema, fields: seq<Field>,
                            ms: seq<(string, Val)>, extra: seq<(string, Val)>)
    requires forall i, k :: 0 <= i < |fields| && 0 <= k < |extra| ==> extra[k].0 != fields[i].name
    ensures EncodeData(h, schema, fields, Obj(ms + extra)) == EncodeData(h, schema, fields, Obj(ms))
  {
    var c1, c2 := Obj(ms + extra), Obj(ms);
    forall i | 0 <= i < |fields|
      ensures FindMember(c1, fields[i].name) == FindMember(c2, fields[i].name)
    {
      var all := ms + extra;
      forall k | 0 <= k < |all| ensures all[k].1 < c1 { assert all[k] in all; }
      forall k | 0 <= k < |ms| ensures ms[k].1 < c1 && ms[k].1 < c2 {
        assert ms[k] == all[k];
        assert all[k] in all;
        assert ms[k] in ms;
      }
      FirstNamedAppend(c1, ms, extra, fields[i].name);
      assert FindMember(c2, fields[i].name) == Ok(FirstNamed(c2, ms, fields[i].name));
      FirstNamedSameBound(c1, c2, ms, fields[i].name);
    }
    SameLookupsSameData(h, schema, fields, c1, c2);
  }

  /** The container a lookup is bounded by plays no part in its result. */
  lemma {:induction false} FirstNamedSameBound(c1: Val, c2: Val, ms: seq<(string, Val)>, name: string)
    requires forall i :: 0 <= i < |ms| ==> ms[i].1 < c1 && ms[i].1 < c2
    ensures FirstNamed(c1, ms, name) == FirstNamed(c2, ms, name)
  {
    if ms != [] && ms[0].0 != name {
      FirstNamedSameBound(c1, c2, ms[1..], name);
    }
  }

  // ------------------------------------------------------ primitive arrays

  /** `uint256[]`, `int8[]` and the like are refused: INT_ARRAY_ERROR. */
  lemma IntArrayRefused(h: Hash, schema: Schema, t: string, v: Val)
    requires HasPrefix(t, "uin") || HasPrefix(t, "in")
    requires EndsWith(t, ']')
    ensures EncodeField(h, schema, t, v) == Fail(IntArrayError)
  {
    PrefixHead(t, "addres");
    PrefixHead(t, "strin");
    PrefixHead(t, "uin");
    PrefixHead(t, "in");
  }

  /** `bytes[]` and `bytesN[]` are refused: BYTESN_ARRAY_ERROR. */
  lemma BytesArrayRefused(h: Hash, schema: Schema, t: string, v: Val)
    requires HasPrefix(t, "bytes")
    requires EndsWith(t, ']')
    ensures EncodeField(h, schema, t, v) == Fail(BytesnArrayError)
  {
    PrefixHead(t, "addres");
    PrefixHead(t, "strin");
    PrefixHead(t, "uin");
    PrefixHead(t, "in");
    PrefixHead(t, "bytes");
  }

  /** `bool[]` is not a prefix of `bool`, so it takes the struct branch and
      fails there as an undeclared struct `bool`. */
  lemma BoolArrayIsStruct(h: Hash, schema: Schema, v: Val)
    requires LookupType(schema, "bool").None?
    ensures Dispatch("bool[]") == StructKind
    ensures EncodeField(h, schema, "bool[]", v) == Fail(JsonTypeSErr)
  {
    var t := "bool[]";
    PrefixHead(t, "addres");
    PrefixHead(t, "strin");
    PrefixHead(t, "uin");
    PrefixHead(t, "in");
    PrefixHead(t, "bytes");
    assert !HasPrefix("bool", t);
    assert LeadingCount(t, '[') == 0;
    assert IndexFrom(t, '[', 0) == 4 by {
      assert t[0] != '[' && t[1] != '[' && t[2] != '[' && t[3] != '[' && t[4] == '[';
    }
    assert StrtokBuffer(t, '[') == "bool";
  }

  /** The element words of an address array, one result per item. */
  function AddressItems(items: seq<Val>): (rs: seq<Result<seq<byte>>>)
    ensures |rs| == |items| && AllWords(rs)
    ensures forall i :: 0 <= i < |items| ==> rs[i] == AddressItem(items[i])
  {
    seq(|items|, i requires 0 <= i < |items| => AddressItem(items[i]))
  }

  lemma {:induction false} AddressWordsIsConcat(items: seq<Val>)
    ensures AddressWords(items) == Concat(AddressItems(items))
  {
    if items != [] {
      AddressWordsIsConcat(items[1..]);
      assert AddressItems(items)[1..] == AddressItems(items[1..]);
    }
  }

  /** The words of an address array are the items' `encAddress` words in
      order; they exist exactly when every item encodes, and otherwise the
      first item that does not gives the status. */
  lemma AddressWordsAre(items: seq<Val>)
    ensures AddressWords(items).Ok? <==> forall i :: 0 <= i < |items| ==> AddressItem(items[i]).Ok?
    ensures AddressWords(items).Ok? ==> forall i :: 0 <= i < |items| ==>
      AddressWords(items).value[WordSize * i..WordSize * i + WordSize] == AddressItem(items[i]).value
    ensures forall i :: 0 <= i < |items| && AddressItem(items[i]).Fail?
                        && (forall j :: 0 <= j < i ==> AddressItem(items[j]).Ok?) ==>
      AddressWords(items) == Fail(AddressItem(items[i]).error)
  {
    var rs := AddressItems(items);
    AddressWordsIsConcat(items);
    ConcatOkIff(rs);
    forall i | 0 <= i < |items| && AddressWords(items).Ok?
      ensures AddressWords(items).value[WordSize * i..WordSize * i + WordSize] == AddressItem(items[i]).value
    {
      ConcatWord(rs, i);
    }
    forall i | 0 <= i < |items| && AddressItem(items[i]).Fail?
               && (forall j :: 0 <= j < i ==> AddressItem(items[j]).Ok?)
      ensures AddressWords(items) == Fail(AddressItem(items[i]).error)
    {
      ConcatFirstFailure(rs, i);
    }
  }

  /** An address array (`address[]`, `address[n]`) hashes the words of its
      elements in order: word i is `encAddress` of item i's text.  It
      encodes exactly when every item does, and otherwise fails with the
      status of the first item that does not. */
  lemma AddressArray(h: Hash, t: string, items: seq<Val>)
    requires EndsWith(t, ']')
    ensures AddressField(h, t, Arr(items)).Ok? <==> forall i :: 0 <= i < |items| ==> AddressItem(items[i]).Ok?
    ensures AddressField(h, t, Arr(items)).Ok? ==>
      AddressWords(items).Ok? && AddressField(h, t, Arr(items)).value == h(AddressWords(items).value)
      && forall i :: 0 <= i < |items| ==>
           items[i].Text? && EncAddress(Some(items[i].s)).Ok?
           && AddressWords(items).value[WordSize * i..WordSize * i + WordSize] == EncAddress(Some(items[i].s)).value
    ensures forall i :: 0 <= i < |items| && AddressItem(items[i]).Fail?
                        && (forall j :: 0 <= j < i ==> AddressItem(items[j]).Ok?) ==>
      AddressField(h, t, Arr(items)) == Fail(AddressItem(items[i]).error)
  {
    AddressWordsAre(items);
  }

  /** The element words of a string array, one result per item. */
  function StringItems(h: Hash, items: seq<Val>): (rs: seq<Result<seq<byte>>>)
    ensures |rs| == |items| && AllWords(rs)
    ensures forall i :: 0 <= i < |items| ==> rs[i] == StringItem(h, items[i])
  {
    seq(|items|, i requires 0 <= i < |items| => StringItem(h, items[i]))
  }

  lemma {:induction false} StringWordsIsConcat(h: Hash, items: seq<Val>)
    ensures StringWords(h, items) == Concat(StringItems(h, items))
  {
    if items != [] {
      StringWordsIsConcat(h, items[1..]);
      assert StringItems(h, items)[1..] == StringItems(h, items[1..]);
    }
  }

  /** The words of a string array are the hashes of the items' texts in
      order; they exist exactly when every item is text. */
  lemma StringWordsAre(h: Hash, items: seq<Val>)
    ensures StringWords(h, items).Ok? <==> forall i :: 0 <= i < |items| ==> items[i].Text?
    ensures StringWords(h, items).Ok? ==> forall i :: 0 <= i < |items| ==>
      StringWords(h, items).value[WordSize * i..WordSize * i + WordSize] == h(CString.Bytes(items[i].s))
  {
    var rs := StringItems(h, items);
    StringWordsIsConcat(h, items);
    forall i | 0 <= i < |items| && StringWords(h, items).Ok?
      ensures StringWords(h, items).value[WordSize * i..WordSize * i + WordSize] == h(CString.Bytes(items[i].s))
    {
      ConcatWord(rs, i);
    }
  }

  /** A string array (`string[]`, `string[n]`) hashes the string hashes of
      its elements in order: word i is the hash of item i's text. */
  lemma StringArray(h: Hash, t: string, items: seq<Val>)
    requires EndsWith(t, ']')
    ensures StringField(h, t, Arr(items)).Ok? <==> forall i :: 0 <= i < |items| ==> items[i].Text?
    ensures StringField(h, t, Arr(items)).Ok? ==>
      StringWords(h, items).Ok? && StringField(h, t, Arr(items)).value == h(StringWords(h, items).value)
      && forall i :: 0 <= i < |items| ==>
           StringWords(h, items).value[WordSize * i..WordSize * i + WordSize] == h(CString.Bytes(items[i].s))
    ensures !StringField(h, t, Arr(items)).Ok? ==> StringField(h, t, Arr(items)) == Fail(Undefined)
  {
    StringWordsAre(h, items);
  }

  // --------------------------------------------------------- struct arrays

  /** The words of `items` encoded one by one as values of struct `t`,
      concatenated. */
  function StructWords(h: Hash, schema: Schema, t: string, items: seq<Val>): Result<seq<byte>>
  {
    if items == [] then Ok([])
    else
      var word :- StructWord(h, schema, t, items[0]);
      var rest :- StructWords(h, schema, t, items[1..]);
      Ok(word + rest)
  }

  lemma {:induction false} StructHashesAreWords(h: Hash, schema: Schema, t: string, items: seq<Val>, bound: Val)
    requires TypeString(schema, t).Ok? && !EndsWith(t, ']')
    requires forall i :: 0 <= i < |items| ==> items[i] < bound
    ensures StructHashes(h, schema, LookupType(schema, t).value.fields,
                         h(CString.Bytes(TypeString(schema, t).value)), items, bound)
         == StructWords(h, schema, t, items)
  {
    if items != [] {
      StructHashesAreWords(h, schema, t, items[1..], bound);
    }
  }

  /** `strtok` on `[` keeps the name before the brackets. */
  lemma ArrayBase(t: string, brackets: string)
    requires t != "" && '[' !in t
    requires brackets != "" && brackets[0] == '['
    ensures StrtokBuffer(t + brackets, '[') == t
  {
    var s := t + brackets;
    assert s[0] == t[0];
    assert LeadingCount(s, '[') == 0;
    assert forall i :: 0 <= i < |t| ==> s[i] == t[i];
    assert s[|t|] == '[';
    assert IndexFrom(s, '[', 0) == |t|;
    assert s[..|t|] == t;
  }

  /** Whatever is written between the brackets of a struct array type, the
      array hashes as `t[]` does, so long as the type fits the 32-byte
      buffer: the length is never read. */
  lemma ArrayTypeWord(h: Hash, schema: Schema, t: string, brackets: string, v: Val)
    requires t != "" && '[' !in t
    requires |brackets| >= 2 && brackets[0] == '[' && brackets[|brackets| - 1] == ']'
    requires |t| + |brackets| <= MaxTypeString - 1
    ensures StructWord(h, schema, t + brackets, v) == StructArray(h, schema, t, v)
  {
    ArrayBase(t, brackets);
    assert EndsWith(t + brackets, ']');
  }

  lemma ArrayLengthIgnored(h: Hash, schema: Schema, t: string, n: string, v: Val)
    requires t != "" && '[' !in t
    requires |t| + |n| + 2 <= MaxTypeString - 1
    ensures StructWord(h, schema, t + "[" + n + "]", v) == StructWord(h, schema, t + "[]", v)
  {
    assert t + "[" + n + "]" == t + ("[" + n + "]");
    ArrayTypeWord(h, schema, t, "[" + n + "]", v);
    ArrayTypeWord(h, schema, t, "[]", v);
  }

  /** A non-empty array of a declared struct `t` hashes the element hashes
      that `StructHashes` computes with `t`'s fields and type hash. */
  lemma StructArrayHashes(h: Hash, schema: Schema, t: string, items: seq<Val>)
    requires TypeString(schema, t).Ok? && ElementType(schema, t) == Ok(LookupType(schema, t).value)
    requires items != []
    ensures forall i :: 0 <= i < |items| ==> items[i] < Arr(items)
    ensures StructArray(h, schema, t, Arr(items))
      == (match StructHashes(h, schema, LookupType(schema, t).value.fields,
                             h(CString.Bytes(TypeString(schema, t).value)), items, Arr(items))
          case Ok(hs) => Ok(h(hs))
          case Fail(e) => Fail(e))
  {
    assert forall i :: 0 <= i < |items| ==> items[i] < Arr(items);
  }

  /** An array of struct `t` hashes the concatenated words its elements
      would have as single struct values, and the empty array hashes the
      empty string. */
  lemma StructArrayWord(h: Hash, schema: Schema, t: string, items: seq<Val>)
    requires TypeString(schema, t).Ok?
    requires t != "" && '[' !in t && ']' !in t && |t| + 2 <= MaxTypeString - 1
    ensures StructWord(h, schema, t + "[]", Arr(items))
      == (match StructWords(h, schema, t, items)
          case Ok(ws) => Ok(h(ws))
          case Fail(e) => Fail(e))
  {
    assert !EndsWith(t, ']') by { assert t[|t| - 1] in t; }
    ArrayTypeWord(h, schema, t, "[]", Arr(items));
    if items != [] {
      assert ElementType(schema, t) == Ok(LookupType(schema, t).value);
      StructArrayHashes(h, schema, t, items);
      StructHashesAreWords(h, schema, t, items, Arr(items));
    }
  }
}

=== FILE: word_encoder.dfy ===
/** The 32-byte words the hasher produces for primitive values: the encoders
    `encAddress`, `encString`, `encodeBytes`, `encodeBytesN`
    (components/ethereum/eip712/eip712.c:368-454) and the integer and bool
    encodings `parseVals` writes inline (lines 701-733 and 787-795). */
module WordEncoder {
  import opened Uint8
  import opened Errors
  import opened CString
  import opened Keccak
  import TypeEncoder

  /** ADDRESS_SIZE: the longest address text accepted. */
  const AddressSize: nat := 42
  /** MAX_ENCBYTEN_SIZE: the longest `bytesN` value text accepted. */
  const MaxEncBytenSize: nat := 66
  /** `unsigned` is 32 bits wide on the wallet's processor. */
  const UnsignedModulus: nat := 0x1_0000_0000

  // ------------------------------------------------------ byte arithmetic

  function Pow256(n: nat): (r: nat)
    ensures r >= 1
  {
    if n == 0 then 1 else 256 * Pow256(n - 1)
  }

  /** The `n` low bytes of `x` in two's complement, most significant first:
      byte `k` is `(x >> 8 * (n - 1 - k)) & 0xff` with an arithmetic shift. */
  function BigEndian(x: int, n: nat): (r: seq<byte>)
    ensures |r| == n
    decreases n
  {
    if n == 0 then [] else BigEndian(x / 256, n - 1) + [(x % 256) as byte]
  }

  /** The unsigned value of a big-endian byte string. */
  function FromBigEndian(bs: seq<byte>): nat
  {
    if bs == [] then 0 else FromBigEndian(bs[..|bs| - 1]) * 256 + bs[|bs| - 1] as nat
  }

  /** A word read as a 256-bit two's-complement integer. */
  function SignedValue(w: seq<byte>): int
  {
    var u := FromBigEndian(w);
    if u >= Pow256(31) * 128 then u - Pow256(32) else u
  }

  // -------------------------------------------------------------- encoders

  /** `encAddress` (lines 368-392): twelve zero bytes, then the twenty bytes
      spelled by the hex pairs after the first two characters.  `None` is a
      NULL pointer.  A text shorter than 40 characters makes the C code read
      past its terminator, which the parsed value does not determine. */
  function EncAddress(s: Option<string>): (r: Result<seq<byte>>)
    ensures s.None? ==> r == Fail(AddrStringNull)
    ensures s.Some? && |s.value| > AddressSize ==> r == Fail(AddrStringVflow)
    ensures r.Ok? <==> s.Some? && 40 <= |s.value| <= AddressSize
    ensures r.Ok? ==> |r.value| == WordSize && r.value[..12] == Zeros(12)
    ensures r.Ok? ==> forall i :: 0 <= i < 20 ==> r.value[12 + i] == HexByteAt(s.value, 2 + 2 * i)
  {
    match s
    case None => Fail(AddrStringNull)
    case Some(a) =>
      if AddressSize < |a| then Fail(AddrStringVflow)
      else if |a| < 40 then Fail(Undefined)
      else Ok(Zeros(12) + seq(20, i requires 0 <= i < 20 => HexByteAt(a, 2 + 2 * i)))
  }

  /** `encString` (lines 394-402): the hash of the string's bytes. */
  function EncString(h: Hash, s: string): (w: seq<byte>)
    ensures |w| == WordSize
  {
    h(Bytes(s))
  }

  /** The bytes spelled by consecutive hex pairs. */
  function HexDecode(hs: string): (r: seq<byte>)
    requires |hs| % 2 == 0
    ensures |r| == |hs| / 2
  {
    seq(|hs| / 2, i requires 0 <= i < |hs| / 2 => HexByteAt(hs, 2 * i))
  }

  /** `encodeBytes` (lines 404-423): the hash of the bytes spelled by the hex
      pairs after the first two characters.  A text shorter than two
      characters, or with an odd number of characters after them, makes the
      loop step over the terminator. */
  function EncodeBytes(h: Hash, s: string): (r: Result<seq<byte>>)
    ensures r.Ok? <==> |s| >= 2 && |s| % 2 == 0
    ensures r.Ok? ==> |r.value| == WordSize
  {
    if |s| < 2 || (|s| - 2) % 2 != 0 then Fail(Undefined)
    else Ok(h(HexDecode(s[2..])))
  }

  /** The number of bytes `encodeBytesN` copies from a value text: the hex
      pairs after the first two characters (none for a text shorter than two,
      where the unsigned arithmetic of line 446 wraps and the copy loop is
      skipped). */
  function ValueByteCount(s: string): nat
  {
    if |s| < 2 then 0 else (|s| - 2) / 2
  }

  /** `encodeBytesN` (lines 425-454): the decoded bytes left-aligned in the
      word and zero-padded on the right.  How many bytes are copied depends
      on the length of the value, not on the N of the type. */
  function EncodeBytesN(t: string, s: string): (r: Result<seq<byte>>)
    ensures |s| > MaxEncBytenSize ==> r == Fail(BytesnStringError)
    ensures |s| <= MaxEncBytenSize && TypeEncoder.BytesWidth(t) > 32 ==> r == Fail(BytesnSizeError)
    ensures r.Ok? <==> |s| <= MaxEncBytenSize && TypeEncoder.BytesWidth(t) <= 32
    ensures r.Ok? ==> |r.value| == WordSize
    ensures r.Ok? ==> forall i :: 0 <= i < ValueByteCount(s) ==> r.value[i] == HexByteAt(s, 2 + 2 * i)
    ensures r.Ok? ==> forall i :: ValueByteCount(s) <= i < WordSize ==> r.value[i] == 0
  {
    if MaxEncBytenSize < |s| then Fail(BytesnStringError)
    else if 32 < TypeEncoder.BytesWidth(t) then Fail(BytesnSizeError)
    else
      Ok(LeftAligned(s, CopiedCount(|s|)))
  }

  /** A word holding the first `n` bytes spelled by the hex pairs after the
      first two characters of `s`, then zeros. */
  function LeftAligned(s: string, n: nat): (w: seq<byte>)
    requires n <= WordSize && (n > 0 ==> 2 + 2 * n <= |s|)
    ensures |w| == WordSize
    ensures forall i :: 0 <= i < n ==> w[i] == HexByteAt(s, 2 + 2 * i)
    ensures forall i :: n <= i < WordSize ==> w[i] == 0
  {
    seq(WordSize, i requires 0 <= i < WordSize => if i < n then HexByteAt(s, 2 + 2 * i) else 0)
  }

  /** The bytes `encodeBytesN` copies for a value text of length `len`: 32
      minus `zeroFillLen`, which line 446 computes as
      `32 - ((strlen(string) - 2) / 2)` in `size_t` and stores in an
      `unsigned`; the copy loop of line 450 runs only when it is at most 32. */
  function CopiedCount(len: nat): (n: nat)
    requires len <= MaxEncBytenSize
    ensures n == if len < 2 then 0 else (len - 2) / 2
    ensures n > 0 ==> 2 + 2 * n <= len
  {
    var skip := ((len - 2) % TypeEncoder.SizeModulus) / 2;
    assert len < 2 ==> skip > WordSize;
    var zeroFill := (32 - skip) % UnsignedModulus;
    if zeroFill <= 32 then 32 - zeroFill else 0
  }

  /** Whether the integer branch sign-extends (lines 701-708): the type
      starts with `in` and the value text with `-`. */
  predicate SignExtends(t: string, v: string)
  {
    StrnEq("int", t, 2) && |v| > 0 && v[0] == '-'
  }

  /** The integer word of lines 701-733: 24 bytes of sign extension, then the
      64-bit `strtoll` value in big-endian order. */
  function IntWord(t: string, v: string): (w: seq<byte>)
    ensures |w| == WordSize
    ensures forall i :: 0 <= i < 24 ==> w[i] == if SignExtends(t, v) then 0xFF else 0
    ensures !HasPrefix(t, "in") ==> w[..24] == Zeros(24)
    ensures w[24..] == BigEndian(StrToLL(v, 10), 8)
  {
    StrnEqIsPrefix(t, "in");
    assert StrnEq("int", t, 2) <==> StrnEq("in", t, 2);
    var fill: byte := if SignExtends(t, v) then 0xFF else 0;
    seq(24, _ => fill) + BigEndian(StrToLL(v, 10), 8)
  }

  /** The bool word of lines 787-795: 1 in the last byte exactly when the
      value text is `true`. */
  function BoolWord(v: string): (w: seq<byte>)
    ensures |w| == WordSize
    ensures w == if v == "true" then Zeros(31) + [1] else Zeros(32)
  {
    assert StrnEq(v, "true", 5) <==> v == "true";
    Zeros(31) + [if StrnEq(v, "true", 5) then 1 else 0]
  }
}

=== FILE: word_properties.dfy ===
/** What the primitive words mean: the numeric value of the integer and bool
    words, and that the hex encoders read back the bytes a wallet writes as
    `0x`-prefixed lower-case hex. */
module WordProperties {
  import opened Uint8
  import opened Errors
  import opened CString
  import opened Keccak
  import opened WordEncoder
  import TypeEncoder

  // ------------------------------------------------------ byte arithmetic

  lemma {:induction false} FromBigEndianAppend(a: seq<byte>, b: seq<byte>)
    ensures FromBigEndian(a + b) == FromBigEndian(a) * Pow256(|b|) + FromBigEndian(b)
    decreases |b|
  {
    if b == [] {
      assert a + b == a;
    } else {
      var b' := b[..|b| - 1];
      assert (a + b)[..|a + b| - 1] == a + b';
      FromBigEndianAppend(a, b');
      var x, p, y, c := FromBigEndian(a), Pow256(|b'|), FromBigEndian(b'), b[|b| - 1] as nat;
      assert (a + b)[|a + b| - 1] == b[|b| - 1];
      assert FromBigEndian(a + b) == (x * p + y) * 256 + c;
      assert Pow256(|b|) == p * 256;
      Regroup(x, p, y, c);
    }
  }

  lemma Regroup(x: int, p: int, y: int, c: int)
    ensures (x * p + y) * 256 + c == x * (p * 256) + (y * 256 + c)
  {
  }

  lemma ByteValue(v: int)
    requires 0 <= v < 256
    ensures (v as byte) as nat == v
  {
  }

  /** A run of `n` copies of one byte value. */
  function Fill(n: nat, b: byte): (r: seq<byte>)
    ensures |r| == n
  {
    seq(n, _ => b)
  }

  lemma {:induction false} FromBigEndianFill(n: nat, b: byte)
    ensures b == 0 ==> FromBigEndian(Fill(n, b)) == 0
    ensures b == 0xFF ==> FromBigEndian(Fill(n, b)) == Pow256(n) - 1
  {
    if n > 0 {
      assert Fill(n, b)[..n - 1] == Fill(n - 1, b);
      FromBigEndianFill(n - 1, b);
    }
  }

  /** `BigEndian` keeps a value that fits in its `n` bytes. */
  lemma {:induction false} BigEndianSmall(x: int, n: nat)
    requires 0 <= x < Pow256(n)
    ensures FromBigEndian(BigEndian(x, n)) == x
    decreases n
  {
    if n > 0 {
      var e := BigEndian(x, n);
      assert e[..n - 1] == BigEndian(x / 256, n - 1);
      assert Pow256(n) == 256 * Pow256(n - 1);
      BigEndianSmall(x / 256, n - 1);
      ByteValue(x % 256);
      assert e[n - 1] as nat == x % 256;
    }
  }

  /** `BigEndian` sees only the value modulo 256^n. */
  lemma {:induction false} BigEndianPeriodic(x: int, n: nat)
    ensures BigEndian(x + Pow256(n), n) == BigEndian(x, n)
    decreases n
  {
    if n > 0 {
      var p := Pow256(n - 1);
      assert (x + 256 * p) / 256 == x / 256 + p;
      assert (x + 256 * p) % 256 == x % 256;
      BigEndianPeriodic(x / 256, n - 1);
    }
  }

  /** The eight bytes of lines 726-733: `(x >> 56) & 0xff` down to
      `x & 0xff`, with an arithmetic shift, are `BigEndian(x, 8)`. */
  lemma BigEndianShifts(x: int)
    ensures BigEndian(x, 8) == [
      ((x / 0x100_0000_0000_0000) % 256) as byte, ((x / 0x1_0000_0000_0000) % 256) as byte,
      ((x / 0x100_0000_0000) % 256) as byte, ((x / 0x1_0000_0000) % 256) as byte,
      ((x / 0x100_0000) % 256) as byte, ((x / 0x1_0000) % 256) as byte,
      ((x / 0x100) % 256) as byte, (x % 256) as byte]
  {
    var q1 := x / 0x100;
    var q2 := q1 / 0x100;
    var q3 := q2 / 0x100;
    var q4 := q3 / 0x100;
    var q5 := q4 / 0x100;
    var q6 := q5 / 0x100;
    var q7 := q6 / 0x100;
    assert q2 == x / 0x1_0000;
    assert q3 == x / 0x100_0000;
    assert q4 == x / 0x1_0000_0000;
    assert q5 == x / 0x100_0000_0000;
    assert q6 == x / 0x1_0000_0000_0000;
    assert q7 == x / 0x100_0000_0000_0000;
  }

  const TwoTo64: nat := 0x1_0000_0000_0000_0000

  lemma {:induction false} PowAdd(a: nat, b: nat)
    ensures Pow256(a) * Pow256(b) == Pow256(a + b)
    decreases b
  {
    if b > 0 {
      PowAdd(a, b - 1);
      var x, y := Pow256(a), Pow256(b - 1);
      assert x * (256 * y) == 256 * (x * y);
    }
  }

  const TwoTo192: nat := 0x1_0000_0000_0000_0000_0000_0000_0000_0000_0000_0000_0000_0000
  const TwoTo256: nat := 0x1_0000_0000_0000_0000_0000_0000_0000_0000_0000_0000_0000_0000_0000_0000_0000_0000

  lemma Pow256Constants()
    ensures Pow256(8) == TwoTo64
    ensures Pow256(24) == TwoTo192
    ensures Pow256(32) == TwoTo256
    ensures Pow256(31) * 128 == TwoTo256 / 2
  {
    assert Pow256(8) == TwoTo64;
    PowAdd(8, 8);
    PowAdd(16, 8);
    PowAdd(24, 8);
    assert Pow256(32) == 256 * Pow256(31);
  }

  // --------------------------------------------------------- word values

  /** Lines 701-733 for a `uint` type: the word of the decimal text of a
      value `strtoll` can hold is that value. */
  lemma UintWordValue(t: string, v: nat)
    requires !HasPrefix(t, "in") && v <= LongLongMax
    ensures FromBigEndian(IntWord(t, Decimal(v))) == v
  {
    var w := IntWord(t, Decimal(v));
    DecimalParses(v);
    assert w == w[..24] + w[24..];
    FromBigEndianAppend(w[..24], w[24..]);
    assert w[..24] == Fill(24, 0);
    FromBigEndianFill(24, 0);
    Pow256Constants();
    BigEndianSmall(v, 8);
  }

  /** Values beyond `LLONG_MAX` saturate: every larger value encodes as
      `LLONG_MAX`, so the word does not determine the value beyond 63 bits. */
  lemma UintWordSaturates(t: string, v: nat)
    requires !HasPrefix(t, "in") && v > LongLongMax
    ensures FromBigEndian(IntWord(t, Decimal(v))) == LongLongMax
  {
    DecimalParses(v);
    DecimalParses(LongLongMax);
    var w, m := IntWord(t, Decimal(v)), IntWord(t, Decimal(LongLongMax));
    assert StrToLL(Decimal(v), 10) == StrToLL(Decimal(LongLongMax), 10);
    assert w[..24] == m[..24] && w[24..] == m[24..];
    assert w == w[..24] + w[24..] && m == m[..24] + m[24..];
    UintWordValue(t, LongLongMax);
  }

  /** Lines 701-733 for an `int` type: the word of a 64-bit value read as a
      256-bit two's-complement number is that value. */
  lemma IntWordValue(t: string, v: int)
    requires HasPrefix(t, "in") && LongLongMin <= v <= LongLongMax
    ensures SignedValue(IntWord(t, FormatInt(v))) == v
  {
    var s := FormatInt(v);
    var w := IntWord(t, s);
    FormatIntParses(v);
    assert StrToLL(s, 10) == v;
    StrnEqIsPrefix(t, "in");
    assert w == w[..24] + w[24..];
    if v >= 0 {
      assert s[0] != '-' by { assert IsDigit(s[0], 10); }
      assert w[..24] == Fill(24, 0);
      ExtendedValue(v, 0);
    } else {
      assert SignExtends(t, s);
      assert w[..24] == Fill(24, 0xFF);
      ExtendedValue(v, 0xFF);
    }
  }

  /** A 64-bit value sign-extended to 256 bits reads back as itself. */
  lemma ExtendedValue(v: int, fill: byte)
    requires LongLongMin <= v <= LongLongMax
    requires fill == if v < 0 then 0xFF else 0
    ensures SignedValue(Fill(24, fill) + BigEndian(v, 8)) == v
  {
    var hi, lo := Fill(24, fill), BigEndian(v, 8);
    FromBigEndianAppend(hi, lo);
    FromBigEndianFill(24, fill);
    Pow256Constants();
    var u, a, b := FromBigEndian(hi + lo), FromBigEndian(hi), FromBigEndian(lo);
    assert u == a * TwoTo64 + b;
    if v >= 0 {
      BigEndianSmall(v, 8);
      assert a == 0 && b == v;
      assert u == v;
    } else {
      BigEndianPeriodic(v, 8);
      BigEndianSmall(v + TwoTo64, 8);
      assert a == TwoTo192 - 1 && b == v + TwoTo64;
      assert u == TwoTo256 + v;
    }
  }

  /** Lines 787-795: the bool word is the number 1 for `true` and 0 for any
      other text. */
  lemma BoolWordValue(v: string)
    ensures FromBigEndian(BoolWord(v)) == if v == "true" then 1 else 0
  {
    var w := BoolWord(v);
    assert w == w[..31] + w[31..];
    FromBigEndianAppend(w[..31], w[31..]);
    assert w[..31] == Fill(31, 0);
    FromBigEndianFill(31, 0);
    assert w[31..][..0] == [];
  }

  // ------------------------------------------------------- hex round trips

  lemma HexByteAtShift(p: string, s: string, k: nat)
    requires k <= |s|
    ensures HexByteAt(p + s, |p| + k) == HexByteAt(s, k)
  {
    assert PairBuffer(p + s, |p| + k) == PairBuffer(s, k);
  }

  /** A hex spelling after any prefix is read back pair by pair. */
  lemma HexAfterPrefix(p: string, a: seq<byte>, n: nat)
    requires n == |p|
    ensures forall i :: 0 <= i < |a| ==> HexByteAt(p + Hex(a), n + 2 * i) == a[i]
  {
    forall i | 0 <= i < |a|
      ensures HexByteAt(p + Hex(a), n + 2 * i) == a[i]
    {
      HexByteAtShift(p, Hex(a), 2 * i);
      HexBytesParse(a, i);
    }
  }

  /** `encAddress` reads back the 20 bytes of a `0x`-prefixed hex address,
      right-aligned in the word. */
  lemma AddressRoundTrip(a: seq<byte>)
    requires |a| == 20
    ensures EncAddress(Some("0x" + Hex(a))) == Ok(Zeros(12) + a)
  {
    var r := EncAddress(Some("0x" + Hex(a)));
    assert r.Ok?;
    HexAfterPrefix("0x", a, 2);
    assert forall i :: 0 <= i < 20 ==> r.value[12 + i] == a[i];
    assert r.value == Zeros(12) + a;
  }

  /** `encodeBytesN` reads back up to 32 bytes written as `0x`-prefixed hex,
      left-aligned and zero-padded, whatever N the type names. */
  lemma BytesNRoundTrip(t: string, a: seq<byte>)
    requires |a| <= 32 && TypeEncoder.BytesWidth(t) <= 32
    ensures EncodeBytesN(t, "0x" + Hex(a)) == Ok(a + Zeros(32 - |a|))
  {
    var s := "0x" + Hex(a);
    assert ValueByteCount(s) == |a|;
    HexAfterPrefix("0x", a, 2);
    BytesNWord(t, s, a);
  }

  /** A `bytesN` word whose copied bytes spell `a` is `a`, zero-padded. */
  lemma BytesNWord(t: string, s: string, a: seq<byte>)
    requires EncodeBytesN(t, s).Ok? && ValueByteCount(s) == |a|
    requires forall i :: 0 <= i < |a| ==> HexByteAt(s, 2 + 2 * i) == a[i]
    ensures EncodeBytesN(t, s).value == a + Zeros(32 - |a|)
  {
    var w := EncodeBytesN(t, s).value;
    assert forall i :: 0 <= i < WordSize ==> w[i] == (a + Zeros(32 - |a|))[i];
  }

  /** `encodeBytes` hashes exactly the bytes written as `0x`-prefixed hex. */
  lemma BytesRoundTrip(h: Hash, a: seq<byte>)
    ensures EncodeBytes(h, "0x" + Hex(a)) == Ok(h(a))
  {
    var s := "0x" + Hex(a);
    assert s[2..] == Hex(a);
    HexDecodeRoundTrip(a);
  }

  /** `encString` hashes the string's characters, one byte each, up to its
      terminator: a text spelling the bytes `a` hashes as `a`. */
  lemma StringHashesItsBytes(h: Hash, s: string, a: seq<byte>)
    requires |s| == |a|
    requires forall i :: 0 <= i < |s| ==> s[i] as int == a[i] as int
    ensures EncString(h, s) == h(a)
  {
    forall i | 0 <= i < |s|
      ensures Bytes(s)[i] == a[i]
    {
      var v := a[i] as int;
      assert (s[i] as int) % 256 == v;
    }
    assert Bytes(s) == a;
  }

  lemma HexDecodeRoundTrip(a: seq<byte>)
    ensures HexDecode(Hex(a)) == a
  {
    var x := Hex(a);
    var d := HexDecode(x);
    assert |d| == |a|;
    forall i | 0 <= i < |a|
      ensures d[i] == a[i]
    {
      assert d[i] == HexByteAt(x, 2 * i);
      HexBytesParse(a, i);
    }
    assert d == a;
  }
}
